=== FILE: README.md ===
# OrdoSmart ordering site and print client, modelled in Dafny

This project models the behaviour of the ordering site's client-side logic and of the
shop's order-printing client, and proves properties of that model.

- **Cart** (`cart.dfy`, `assets/js/cart.js`). The cart is an ordered list of line items
  mirrored to the `cart` key of local storage. The model covers:
  - the quantity steppers, kept within [1, 99];
  - direct quantity entry through `parseInt` and clamping;
  - removal behind a confirmation, with JavaScript's `splice` semantics;
  - the order summary with its flat delivery fee of 20;
  - the checkout-form gate;
  - `submitOrder`: its guards, its payload, and the success and failure outcomes;
  - the cart badge.

  Every operation is a pure function from the state before a user action to the state
  after it. The confirmation answer and the server's response are inputs.
- **Components** (`components.dfy`, `assets/js/components.js`). The header and footer
  composer. It covers:
  - the base path, chosen from whether the page sits under a `pages` directory;
  - the rewrite of relative `href`/`src` values;
  - highlighting the nav link whose file name matches the page;
  - the three-class mobile menu with its click and resize handlers;
  - the header's fallback cart badge.
- **LoadComponents** (`load_components.dfy`, `assets/js/load-components.js`). The alternate
  loader. It covers the `updateActiveLink` predicate, with its exact-match, dead
  empty-page and substring disjuncts, and the two-class `initMobileMenu`.
- **PrintOrders** (`print_orders.dfy`, `Printing_client_single/print_orders.py`). The
  print client. It covers:
  - the state file with its load and save, including the `int(str(n)) == n` round trip;
  - one pass of the polling loop as a step function over
    `(last_known_id, state file)`, with what the download, the print and the file write
    did taken as input, including a save that raises after emptying the file and a job
    that reaches the printer before the pass raises;
  - restarts, both with `load_last_order_id` as written (default 1) and with the
    corrected default 0.
- **Text** and **Numerals** (`text.dfy`, `numerals.dfy`). The JavaScript and Python
  primitives the code relies on:
  - `trim` with the ECMAScript whitespace set;
  - `includes`;
  - `replace` with a string pattern, which replaces the first occurrence only;
  - `split('/').pop()`;
  - ASCII `toLowerCase`;
  - `parseInt(s, 10)`;
  - Python's `int()` and `str()`.

Local storage is the `Cart.Slot` datatype: absent, holding a cart, or holding text that
does not parse. The state file is `PrintOrders.StateFile`: missing, or holding text.

## Model

| member | source | states |
|---|---|---|
| Cart.LoadCart | assets/js/cart.js:12-22 | the loaded cart is the stored list, or empty when the key is absent or unparsable; storage is left as it was and memory agrees with it |
| Cart.LoadAfterSave | assets/js/cart.js:119-121 | writing the cart and loading it back gives the same items in the same order |
| Cart.UpdateCartQuantity | assets/js/cart.js:95-106 | a stepper click changes only the targeted item's quantity, and only when the item exists and the new quantity stays in [1, 99]; otherwise nothing changes and nothing is written; quantities in range stay in range and storage stays in sync |
| Cart.ClampQuantity | assets/js/cart.js:84 | the clamped quantity is always in [1, 99], equals an in-range input, and is 99 above the range and 1 below it |
| Cart.HandleQuantityInput | assets/js/cart.js:76-93 | text that does not parse, or parses below 1, or a missing item, leaves the cart unchanged; otherwise the item's quantity becomes the parsed value capped at 99 and the cart is persisted; no other item changes |
| Cart.TypedNumberSetsQuantity | assets/js/cart.js:77-87 | typing a positive decimal number, after any leading blanks, sets the quantity to that number capped at 99 |
| Cart.SpliceStart | assets/js/cart.js:110 | the splice start is within the array; a negative index counts back from the end; an index past the end starts at the end, and one before the start of the array starts at 0 |
| Cart.Splice | assets/js/cart.js:110 | `splice(index, 1)` drops the one item at the splice start and keeps the rest in order; past the end nothing is removed |
| Cart.SpliceAtValidIndex | assets/js/cart.js:110 | at a valid index exactly that item is removed: later items shift down by one, and the multiset of items loses exactly that item |
| Cart.RemoveFromCart | assets/js/cart.js:108-117 | a declined confirmation changes nothing and shows nothing; a confirmed one splices, persists and shows the success notice; quantities stay in range and storage stays in sync |
| Cart.SubtotalAppend | assets/js/cart.js:124 | the subtotal of two concatenated carts is the sum of their subtotals |
| Cart.SumLineTotals | assets/js/cart.js:124 | the left-to-right `reduce` computes Σ price × quantity |
| Cart.SubtotalReplace | assets/js/cart.js:124 | replacing one item moves the subtotal by the difference of the two line totals |
| Cart.StepMovesSubtotal | assets/js/cart.js:97-99 | an applied stepper click moves the subtotal by exactly price × change |
| Cart.RemovalLowersSubtotal | assets/js/cart.js:110 | a confirmed removal at a valid index lowers the subtotal by exactly that line's total |
| Cart.UpdateSummary | assets/js/cart.js:123-135 | the delivery fee is 20 for a non-empty cart and 0 for an empty one; the grand total is subtotal plus fee; submission is disabled exactly when the cart is empty |
| Cart.SubtotalBounds | assets/js/cart.js:124 | with quantities in [1, 99] the subtotal lies between the sum of the unit prices and 99 times that sum |
| Cart.LineTotalBounds | assets/js/cart.js:124 | with a quantity in [1, 99] a line costs between one and 99 times its unit price |
| Cart.SummaryExample | assets/js/cart.js:123-129 | 2 × 50 plus 1 × 30 shows subtotal 130, fee 20, total 150 |
| Cart.StepperMatchesUpdate | assets/js/cart.js:51-55 | for an in-range item, the minus (plus) button is disabled exactly when clicking it would change nothing |
| Cart.ValidateForm | assets/js/cart.js:146-153 | the button is enabled if and only if name, phone and address each contain a non-whitespace character and the cart is non-empty |
| Cart.SummaryIgnoresForm | assets/js/cart.js:131-134 | after a cart change the summary enables the button for a non-empty cart even when a required field is blank, although the form gate would disable it |
| Cart.BuildPayload | assets/js/cart.js:178-194 | one order line per cart item in cart order, with the id defaulting to 0 and title, quantity and price copied; the trimmed customer; subtotal Σ price × quantity, delivery 20 and total subtotal + 20 |
| Cart.LinesTotalOfCart | assets/js/cart.js:182-187 | recomputing Σ qty × price from the order lines gives the cart's subtotal |
| Cart.PayloadAgreesWithSummary | assets/js/cart.js:178-194 | for a non-empty cart the payload's totals equal the summary's figures and agree with its own lines |
| Cart.FailureNotice | assets/js/cart.js:205-231 | a failed request shows an error notice announcing that sending failed, with the reason: the transport error's text for a request that got no answer, the server's message when it sends a non-empty one, and the generic text otherwise |
| Cart.Respond | assets/js/cart.js:211-234 | once the payload is sent, acceptance empties the cart and its storage key, clears the form, leaves the button disabled and schedules the return home; any failure re-enables the button and keeps cart and form |
| Cart.SubmitOrder | assets/js/cart.js:158-235 | a payload is sent if and only if the form gate passes, and it is the payload built from the cart and the trimmed fields. A rejected press changes nothing and shows an error. A blank required field is reported as such even when the cart is also empty; the empty-cart notice appears only once the fields are filled. After sending, acceptance and failure behave as in `Cart.Respond` |
| Cart.SubmitKeepsOrClearsCart | assets/js/cart.js:211-213 | a press of the submit button either leaves the cart and its storage as they were or empties both |
| Cart.SubmitKeepsCartInvariants | assets/js/cart.js:158-235 | whatever the server answers, storage stays in step with the cart and quantities stay in range |
| Cart.DeclineShowsServerMessage | assets/js/cart.js:206-231 | with the form ready to send, a server rejection shows the server's message, or the generic text when the message is missing or empty |
| Cart.NetworkFailureShowsReason | assets/js/cart.js:198-231 | with the form ready to send, a request that gets no answer shows an error notice carrying the transport error's text |
| Cart.ItemCountBounds | assets/js/cart.js:263 | with quantities in range the item count lies between the number of lines and 99 times that |
| Cart.CartCounter | assets/js/cart.js:259-275 | unparsable storage or a page without the cart link leaves the badge untouched; otherwise the badge shows the item count exactly when it is positive |
| Cart.BadgeTracksStoredCart | assets/js/cart.js:262-273 | for a stored in-range cart the badge shows if and only if the cart is non-empty, with a count between its length and 99 times it |
| Cart.RunKeepsQuantitiesInRange | assets/js/cart.js:76-117 | any sequence of stepper clicks, typed quantities and removals keeps every quantity in [1, 99] |
| Cart.RunKeepsStorageInSync | assets/js/cart.js:76-121 | any such sequence leaves storage holding exactly the in-memory cart |
| Cart.StoredQuantitiesStayInRange | assets/js/cart.js:12-121 | starting from a stored cart in range, storage never holds an out-of-range quantity |
| Text.TrimStart | assets/js/cart.js:77 | the result is a suffix; everything dropped is whitespace, and the result does not start with whitespace |
| Text.TrimEnd | assets/js/cart.js:149 | the result is a prefix; everything dropped is whitespace, and the result does not end with whitespace |
| Text.Trim | assets/js/cart.js:162-165 | the trimmed text is empty if and only if the input is all whitespace, and otherwise neither end is whitespace; its contents are stated by `Text.TrimIsPadded` and `Text.TrimIsUnique` |
| Text.TrimIsPadded | assets/js/cart.js:162-165 | what trimming keeps is one contiguous stretch of the input, and everything before and after that stretch is whitespace |
| Text.TrimIsUnique | assets/js/cart.js:162-165 | conversely, any non-empty stretch of the input with only whitespace around it and no whitespace at its own ends is exactly what trimming keeps |
| Text.JsTrim | assets/js/cart.js:149 | `trim()` yields `''` exactly for all-whitespace input |
| Text.JsTrimIsPadded | assets/js/cart.js:162-165 | `trim()` keeps a stretch of its input with only whitespace around it, and it is the only such stretch that has no whitespace at either end |
| Text.IndexFrom | assets/js/load-components.js:61 | the search finds the leftmost occurrence at or after the start, or reports that none exists |
| Text.Contains | assets/js/components.js:5 | `includes` holds if and only if the pattern occurs at some position |
| Text.ReplaceFirst | assets/js/load-components.js:61 | only the leftmost occurrence is replaced; without an occurrence the text is unchanged |
| Text.LastSegment | assets/js/components.js:41 | `split('/').pop()` is the longest suffix free of `/`, preceded by a `/` when shorter than the text |
| Text.LastSegmentAfterSlash | assets/js/components.js:45 | anything before a `/` never shows in the last segment |
| Text.LastSegmentOfPlainName | assets/js/components.js:45 | a name without `/` is its own last segment |
| Text.AsciiLowerKeepsLowerCase | assets/js/components.js:45 | text without upper-case ASCII letters is unchanged by `toLowerCase` |
| Numerals.JsParseIntReadsDecimal | assets/js/cart.js:77 | `parseInt` skips leading whitespace, reads an optional minus and a decimal number, and ignores trailing non-digit text |
| Numerals.DecimalRoundTrip | Printing_client_single/print_orders.py:25 | the digits written for a natural number read back as that number |
| Numerals.PyIntRoundTrip | Printing_client_single/print_orders.py:18-25 | `int(str(n)) == n` for every integer whose decimal form fits CPython's digit limit; the limit is not modelled |
| Numerals.PyIntReadsDecimal | Printing_client_single/print_orders.py:18 | `int()` reads the decimal digits of a natural number back as that number, within CPython's digit limit, which is not modelled |
| Numerals.PyStrInjective | Printing_client_single/print_orders.py:25 | different integers are written as different text |
| Numerals.DigitsPrefixNoMore | Printing_client_single/print_orders.py:18-25 | a prefix of a digit string denotes no more than the whole string |
| Numerals.PyIntReadsDigits | Printing_client_single/print_orders.py:18 | `int()` reads a non-empty run of ASCII digits as its value, within CPython's digit limit, which is not modelled |
| Numerals.PyIntRejectsBareSign | Printing_client_single/print_orders.py:18-21 | `int()` rejects the empty text and a lone `-` |
| Numerals.PyIntRejectsBadGrouping | Printing_client_single/print_orders.py:18-21 | `int()` rejects any text whose part after the whitespace and the sign is not a run of digits with single underscores between them |
| Numerals.PyIntRejectsSeparatorPadding | Printing_client_single/print_orders.py:18-21 | `int()` does not skip an ASCII separator U+001C to U+001F before a number and rejects the text, although `str.isspace` counts it as whitespace |
| Components.PagesMarkerAt | assets/js/components.js:4-5 | after separator normalisation, `/pages/` occurs at a position exactly when the raw path has `pages` between two separators of either kind there |
| Components.BasePath | assets/js/components.js:4-6 | the base is `../` if and only if the path names a `pages` directory, and `./` otherwise |
| Components.HasScheme | assets/js/components.js:24 | the scan agrees with `/^[a-zA-Z]+:\/\//` |
| Components.RewriteUrl | assets/js/components.js:19-31 | empty, fragment, `data:`, `mailto:`, `tel:`, absolute and root-relative values are kept; a leading `./` is replaced by the base; anything else gets the base prefixed |
| Components.DotValueIsRewritten | assets/js/components.js:22-25 | a value starting with `.` is always rewritten |
| Components.CurrentDirValueIsFixedPoint | assets/js/components.js:26-27 | on a top-level page a `./` value is left as it is |
| Components.RewriteAtTopLevelIsIdempotent | assets/js/components.js:19-31 | on a top-level page rewriting twice equals rewriting once |
| Components.RewriteFromPagesClimbs | assets/js/components.js:26-30 | under `pages/` every rewritten value starts with `../` |
| Components.RewriteKeepsLastSegment | assets/js/components.js:26-30 | the rewrite never changes a value's file name |
| Components.CurrentFile | assets/js/components.js:41 | the page key is the lower-cased file name, or `index.html` at a directory URL; it is never empty |
| Components.CurrentFileAtDirectory | assets/js/components.js:41 | at a path ending in `/` the page key is `index.html` |
| Components.LinkKeyOfPrefixedName | assets/js/components.js:45 | a lower-case file name behind any directory prefix is its own link key |
| Components.SelectActiveLinks | assets/js/components.js:41-47 | a link is highlighted if and only if its lower-cased `href` file name equals the page key; hrefs are untouched |
| Components.SelectionIgnoresPriorFlags | assets/js/components.js:43-47 | the previous highlight has no effect on the result |
| Components.DirectoryPathSelectsIndex | assets/js/components.js:41-46 | at a directory URL the `index.html` link is highlighted, whatever its directory prefix |
| Components.SelectionSurvivesRewrite | assets/js/components.js:19-47 | highlighting after the URL rewrite marks the same links as before it |
| Components.ToggleMobileMenu | assets/js/components.js:54-59 | with both button and menu present all three classes flip together; otherwise nothing changes |
| Components.Dispatch | assets/js/components.js:61-88 | a button click toggles the menu. A narrow-screen click on a nav link, or outside both button and menu, closes an open coherent menu. A wide-screen resize closes it. Other events change nothing. Coherence is kept |
| Components.MenuStaysCoherent | assets/js/components.js:54-88 | over any event sequence, the button, menu and body classes never disagree |
| Components.IncompleteHeaderNeverChanges | assets/js/components.js:54-88 | without the button or the menu, no event changes any class |
| Components.FallbackBadge | assets/js/components.js:94-117 | unparsable storage or no cart link leaves the badge untouched; the badge shows the item count exactly when it is positive and the page is the cart page |
| Components.FallbackMatchesCounterOnCartPage | assets/js/components.js:91-119 | the fallback matches the cart page's counter on the cart page and never shows a badge elsewhere |
| Components.HeaderBadge | assets/js/components.js:91-119 | when the page defines the cart's counter, and on the cart page in any case, the header's badge is the counter's; a shown badge carries the stored item count; without the counter no badge is shown off the cart page |
| Components.HeaderBadgeIgnoresCounterOnCartPage | assets/js/components.js:91-119 | on the cart page the badge is the same whichever refresher the header uses |
| Components.HeaderBadgeDependsOnCounterOffCartPage | assets/js/components.js:91-119 | the two refreshers give different badges exactly off the cart page, with a cart link and a readable cart holding items; there the counter shows the count and the fallback hides the badge |
| LoadComponents.CurrentPage | assets/js/load-components.js:50 | the page name is the last path segment, or `index.html` when that is empty; it is never empty |
| LoadComponents.EmptyPageDisjunctIsDead | assets/js/load-components.js:59-61 | the `currentPage === ''` disjunct never contributes |
| LoadComponents.IndexLinkOnlyOnIndexPage | assets/js/load-components.js:59-61 | the `index.html` link is active if and only if the page name is exactly `index.html` |
| LoadComponents.ExactNameIsActive | assets/js/load-components.js:59 | a link whose `href` equals the page name is active |
| LoadComponents.EmptyHrefIsAlwaysActive | assets/js/load-components.js:61 | an empty `href` is active on every page |
| LoadComponents.StripHtmlSuffix | assets/js/load-components.js:61 | removing `.html` from `name.html` gives `name` back when the name has no dot |
| LoadComponents.SubstringMatchesOtherPages | assets/js/load-components.js:61 | `menu.html` is active on `special-menu.html` |
| LoadComponents.MarkLinks | assets/js/load-components.js:53-64 | the loop keeps the number of links and every `href` |
| LoadComponents.MarkLinksFlags | assets/js/load-components.js:53-64 | links before the first one without `href` are flagged by the test; that one is cleared; later links keep their old flags |
| LoadComponents.UpdateActiveLink | assets/js/load-components.js:49-65 | the same, for the page named by the path |
| LoadComponents.FlagsDependOnHrefsOnly | assets/js/load-components.js:53-64 | when every link has an `href`, the old flags do not influence the result |
| LoadComponents.MissingHrefLeavesStaleHighlight | assets/js/load-components.js:54-61 | a link without `href` stops the loop, so a stale highlight after it survives |
| LoadComponents.InitMobileMenu | assets/js/load-components.js:28-32 | listeners are installed if and only if both the button and the menu exist; `UninstalledMenuIgnoresTaps` and `MenuStateByParity` run the taps under its result |
| LoadComponents.UninstalledMenuIgnoresTaps | assets/js/load-components.js:28-44 | without both the button and the menu, no sequence of taps changes either class |
| LoadComponents.HandleTap | assets/js/load-components.js:33-44 | a button tap toggles both classes, a nav-link tap removes both, and without listeners nothing changes; equal classes stay equal |
| LoadComponents.MenuStateByParity | assets/js/load-components.js:28-44 | with both elements present, after any taps the two classes agree. The menu is open exactly when an odd number of button taps followed the last nav-link tap. With no nav-link tap, it is the start state flipped by the parity of the button taps |
| PrintOrders.LoadLastOrderIdAsWritten | Printing_client_single/print_orders.py:12-21 | the stored integer when the file parses, and 1 when it is missing or unparsable |
| PrintOrders.LoadLastOrderId | Printing_client_single/print_orders.py:12-21 | the stored integer when the file parses, and 0 (nothing printed yet) otherwise |
| PrintOrders.SaveLastOrderId | Printing_client_single/print_orders.py:23-25 | the saved file parses back to the saved id |
| PrintOrders.LoadAfterSave | Printing_client_single/print_orders.py:12-25 | loading what was saved gives back the id, under either loader |
| PrintOrders.SavedIdsAreDistinct | Printing_client_single/print_orders.py:23-25 | different ids produce different files |
| PrintOrders.OrderFileName | Printing_client_single/supabase_manager.py:20 | the object name is `wempy_order_<id>.docx` |
| PrintOrders.OrderFileNameInjective | Printing_client_single/supabase_manager.py:20 | different orders have different object names |
| PrintOrders.WrittenPrefix | Printing_client_single/print_orders.py:23-25 | an interrupted write leaves a prefix of the id's text in the file: the first `kept` characters, or all of it |
| PrintOrders.Step | Printing_client_single/print_orders.py:46-69 | a pass advances the cursor by one exactly when the order printed and line 57 was reached; a completed save holds the new cursor; a save whose open raised leaves the file alone; a save that raised after opening leaves a prefix of the new id's text; every other outcome, including a job sent before an exception, changes nothing |
| PrintOrders.FailedPassRetriesSameOrder | Printing_client_single/print_orders.py:59-60 | after a pass that did not print, the same order is requested again |
| PrintOrders.Start | Printing_client_single/print_orders.py:43 | the corrected client (default 0) starts with the cursor loaded from the file |
| PrintOrders.StartAsWritten | Printing_client_single/print_orders.py:43 | the client as written starts with the cursor `load_last_order_id` returns (default 1) |
| PrintOrders.PrintsConsecutiveOrders | Printing_client_single/print_orders.py:46-58 | the orders the cursor moves past are consecutive from the one after the starting cursor, with no gap or repeat, and the cursor ends on the last of them; this is about the cursor, not paper, which `SentButNotAdvancedPrintsTwice` shows can repeat |
| PrintOrders.StayingPassKeepsCursor | Printing_client_single/print_orders.py:46-69 | a pass that does not advance contributes at most its own printed job, and the rest of the run proceeds from the same cursor and file |
| PrintOrders.LonePrintedPass | Printing_client_single/print_orders.py:54-58 | one clean pass prints the next order and moves the cursor past exactly that order |
| PrintOrders.SentButNotAdvancedPrintsTwice | Printing_client_single/print_orders.py:54-69 | a job that reaches the printer in a pass that then raises is sent again by the next pass: the order is on paper twice while the cursor moves past it once |
| PrintOrders.PollingNeverGoesBack | Printing_client_single/print_orders.py:48 | the first request is cursor + 1; requests never go below it and rise by at most one per pass |
| PrintOrders.WrittenPrefixLoadsNoMore | Printing_client_single/print_orders.py:12-25 | whatever part of a positive id an interrupted save leaves, either loader reads back at most that id |
| PrintOrders.WrittenFileNotAhead | Printing_client_single/print_orders.py:55-58 | from a non-negative cursor, a pass that writes the file leaves in it, under either loader, at most the order just moved past |
| PrintOrders.StepKeepsFileNotAhead | Printing_client_single/print_orders.py:46-69 | from a non-negative cursor, no pass makes the file run ahead of the in-memory cursor, under the corrected loader or the one as written |
| PrintOrders.RestartNeverSkipsOrders | Printing_client_single/print_orders.py:43-69 | from a non-negative cursor whose file is not ahead, after any passes a restart from the file requests an order no later than the running client would, so no order is skipped; proved for the client as written and for the corrected one |
| PrintOrders.StartIsNotAhead | Printing_client_single/print_orders.py:12-43 | right after start the file is not ahead of the cursor, for the client as written and for the corrected one |
| PrintOrders.NegativeCursorCanRunAhead | Printing_client_single/print_orders.py:23-43 | with a negative cursor an interrupted save can leave a lone `-`, which loads as the default and puts the file ahead of the client |
| PrintOrders.EmptyFileLoadsDefault | Printing_client_single/print_orders.py:12-21 | an empty state file loads as 0 with the corrected default and as 1 as written |
| PrintOrders.InterruptedSaveRepeatsOrders | Printing_client_single/print_orders.py:12-58 | a save that raises right after emptying the file makes a restart request order 1 (corrected) or 2 (as written), an order the client had already moved past |
| PrintOrders.FreshStartSkipsFirstOrder | Printing_client_single/print_orders.py:14-16 | with the loader as written and no state file, the first request is order 2 and order 1 is never requested |
| PrintOrders.FreshStartBeginsAtFirstOrder | Printing_client_single/print_orders.py:14-16 | with the intended default, the first request is order 1 and the cursor moves past orders 1, 2, 3, … |

## Left out

- Rendering is not modelled, and neither is messaging text beyond its meaning: `displayCart`'s HTML, `showNotification`'s element and timers, and the Arabic notice texts. Notices are modelled as a severity and a `Message` constructor.
- The network is an input. `fetch` and `response.json()` become the `Cart.Response` given to `Cart.SubmitOrder`. The 3-second redirect is the `goHome` flag.
- The header and footer fetch and injection in both loaders (`loadComponent`'s fetch, `innerHTML`, `replaceWith`) are DOM I/O. Only the per-attribute rewrite rule and the active-link rule are modelled.
- Prices are whole numbers (`nat`). JavaScript numbers and floating-point totals are not modelled.
- Cart.LineItem: a quantity is always a number. The `item.quantity || 0` default for a missing quantity, and stored JSON that is not an array of items, are not modelled.
- Cart.LoadCart: memory agrees with storage only on a page that has every element the cart reads; the next line says why.
- Cart.UpdateSummary: every element the cart page reads is assumed to exist: the submit button (so the `if (submitBtn)` guard is not modelled), the summary spans `subtotal`, `delivery-fee` and `grand-total`, the `cart-items` container, and the four form fields including `customer-notes`. A missing summary span would make `updateSummary` throw inside `loadCart`'s `try`, whose `catch` empties the in-memory cart while storage keeps the items; `Cart.LoadCart`'s agreement with storage holds only on a complete page.
- Cart.UpdateSummary: it sets the submit button from the cart alone. It does not consult the form, although the form gate is described as also requiring the contact fields. The model follows the code, and `Cart.SummaryIgnoresForm` states the consequence.
- Numerals.PyInt: CPython's limit on integer string conversion (4300 digits by default, since 3.10.7) is not modelled. On a longer digit run `int()` raises `ValueError`, so loading yields the default, and `str()` raises on a larger integer, so saving fails. The round-trip lemmas hold only below that limit, which order ids do not approach.
- Numerals.PyInt: only ASCII digits are modelled. Python's `int()` also accepts every other Unicode decimal digit; `parseInt` reads ASCII digits only, so nothing is dropped on that side.
- Text.AsciiLower: `toLowerCase` is modelled on ASCII letters only.
- The print client's `printer_manager.py` and the storage download are inputs, given as each pass's `PrintOrders.Attempt`. The `while True` loop, the sleeps, the console output and `KeyboardInterrupt` are not modelled.
- PrintOrders.LoadLastOrderIdAsWritten: a file whose bytes do not decode raises `UnicodeDecodeError`, a `ValueError`, so it gives 1 like unparsable text and is covered by `Holds` with text `int()` rejects. A file removed between `exists()` and `read_text()` gives 1 like a missing one. Any other `OSError` from `read_text` (a permission error, a directory in its place) escapes, because line 43 is outside the loop's `try`, and ends `main`; that crash is not modelled.
- PrintOrders.RestartNeverSkipsOrders: stated for a non-negative cursor only. With a negative id in the state file, an interrupted save can leave a lone `-` that loads as the default, ahead of the client; `PrintOrders.NegativeCursorCanRunAhead` exhibits it. Order ids start at 1.
- PrintOrders.Step: what exactly an interrupted write leaves is modelled as a prefix of the new id's text. Partial writes that are not prefixes, which the operating system does not produce for a single small write, are not modelled.
- Cart.SubmitOrder: a press and the server's answer are one atomic step. In the page the request is awaited, and the page stays live meanwhile. A quantity edit or removal in that window runs `updateSummary`, which re-enables the submit button (assets/js/cart.js:133); a form edit does the same through `validateForm` (assets/js/cart.js:152). So a second order can be sent before the first returns. On success `cart = []` (assets/js/cart.js:212) then discards that edit, although the payload carried the old quantities. These interleavings are not modelled.
- Cart.LoadAfterSave: storage is modelled as holding the item list itself, so the round trip through `JSON.stringify` and `JSON.parse` of each item's fields is assumed rather than proved.

## Findings

| source | as written | input that shows it | evidently intended | confidence | as-written member | corrected member |
|---|---|---|---|---|---|---|
| Printing_client_single/print_orders.py:14-21 | With no usable state file, `load_last_order_id` returns 1. That id means "order 1 already printed", so polling starts at order 2. | first run with no `last_order.txt` (or a file holding `abc`) | default to 0, so that the first request is order 1, as the "Starting from order ID 1" message says | medium; not executed | PrintOrders.FreshStartSkipsFirstOrder | PrintOrders.LoadLastOrderId |

=== FILE: cart.dfy ===
/** The cart manager of the ordering site: an ordered list of line items mirrored
    to one local-storage key, quantity steppers bounded to [1, 99], removal behind a
    confirmation, the order summary with its fixed delivery fee, the checkout-form
    gate, the order submission with its two outcomes, and the item-count badge.
    Every operation is a pure function from the state before the user action to the
    state after it; the network and the confirmation prompt are inputs. */
module Cart {
  import opened Options
  import opened Text
  import opened Numerals

  const DeliveryFee := 20
  const MinQuantity := 1
  const MaxQuantity := 99

  /** One product in the cart; `id` may be missing from what storage held. */
  datatype LineItem = LineItem(id: Option<int>, title: string, image: string, price: nat, quantity: int)

  type Items = seq<LineItem>

  /** The `cart` key of local storage: never written, a serialised item list, or text
      that does not parse as one. */
  datatype Slot = Absent | Stored(items: Items) | Corrupt

  /** The in-memory cart beside the storage slot it is mirrored to. */
  datatype CartState = CartState(items: Items, slot: Slot)

  predicate QuantityInRange(q: int) {
    MinQuantity <= q <= MaxQuantity
  }

  predicate AllInRange(items: Items) {
    forall i :: 0 <= i < |items| ==> QuantityInRange(items[i].quantity)
  }

  /** What parsing the slot yields; an absent key reads as `'[]'` and a parse
      failure falls back to the empty cart. */
  function Decode(slot: Slot): Items {
    if slot.Stored? then slot.items else []
  }

  /** `saveCart`: the whole cart is written over the key. */
  function Save(items: Items): Slot {
    Stored(items)
  }

  /** The in-memory cart is what a fresh page load would read back from storage. */
  predicate Synced(st: CartState) {
    Decode(st.slot) == st.items
  }

  // ---------------------------------------------------------------- loading

  /** `loadCart`: the stored items, or the empty cart when the key is absent or corrupt;
      the storage slot itself is left as it was. */
  function LoadCart(slot: Slot): (st: CartState)
    ensures st.slot == slot && Synced(st)
    ensures slot.Stored? ==> st.items == slot.items
    ensures !slot.Stored? ==> st.items == []
  {
    CartState(Decode(slot), slot)
  }

  /** Saving a cart and loading it again gives back the same items in the same order. */
  lemma LoadAfterSave(items: Items)
    ensures LoadCart(Save(items)).items == items
  {
  }

  // ---------------------------------------------------------- quantity edits

  /** The stepper rule: the item exists and its new quantity stays within [1, 99]. */
  predicate ValidDelta(items: Items, index: int, change: int) {
    0 <= index < |items| && QuantityInRange(items[index].quantity + change)
  }

  /** Sets the quantity of the item at `index`, leaving every other field and item alone,
      and persists the result. */
  function SetQuantityAt(st: CartState, index: int, q: int): (r: CartState)
    requires 0 <= index < |st.items|
    ensures |r.items| == |st.items| && Synced(r)
    ensures r.items[index] == st.items[index].(quantity := q)
    ensures forall j :: 0 <= j < |st.items| && j != index ==> r.items[j] == st.items[j]
  {
    var items := st.items[index := st.items[index].(quantity := q)];
    CartState(items, Save(items))
  }

  /** `updateCartQuantity`: a stepper click applies `change` only when the item exists and
      the result stays in [1, 99]; otherwise nothing changes and nothing is written. */
  function UpdateCartQuantity(st: CartState, index: int, change: int): (r: CartState)
    ensures |r.items| == |st.items|
    ensures forall j :: 0 <= j < |st.items| && j != index ==> r.items[j] == st.items[j]
    ensures ValidDelta(st.items, index, change) ==>
              && r.items[index] == st.items[index].(quantity := st.items[index].quantity + change)
              && r.slot == Stored(r.items)
    ensures !ValidDelta(st.items, index, change) ==> r == st
    ensures AllInRange(st.items) ==> AllInRange(r.items)
    ensures Synced(st) ==> Synced(r)
  {
    if ValidDelta(st.items, index, change) then
      SetQuantityAt(st, index, st.items[index].quantity + change)
    else
      st
  }

  function Min(a: int, b: int): int {
    if a <= b then a else b
  }

  function Max(a: int, b: int): int {
    if a >= b then a else b
  }

  /** `Math.max(1, Math.min(q, 99))`. */
  function ClampQuantity(q: int): (c: int)
    ensures QuantityInRange(c)
    ensures QuantityInRange(q) ==> c == q
    ensures q > MaxQuantity ==> c == MaxQuantity
    ensures q < MinQuantity ==> c == MinQuantity
  {
    Max(MinQuantity, Min(q, MaxQuantity))
  }

  /** `handleQuantityInputChange`: typed text that `parseInt` rejects, or a value below 1,
      discards the edit; a valid value is clamped to 99 and stored at `index` if that
      item exists. */
  function HandleQuantityInput(st: CartState, index: int, text: string): (r: CartState)
    ensures |r.items| == |st.items|
    ensures forall j :: 0 <= j < |st.items| && j != index ==> r.items[j] == st.items[j]
    ensures JsParseInt(text).None? ==> r == st
    ensures JsParseInt(text).Some? && JsParseInt(text).value < 1 ==> r == st
    ensures !(0 <= index < |st.items|) ==> r == st
    ensures JsParseInt(text).Some? && JsParseInt(text).value >= 1 && 0 <= index < |st.items| ==>
              && r.items[index] == st.items[index].(quantity := Min(JsParseInt(text).value, MaxQuantity))
              && r.slot == Stored(r.items)
    ensures AllInRange(st.items) ==> AllInRange(r.items)
    ensures Synced(st) ==> Synced(r)
  {
    match JsParseInt(text)
    case None => st
    case Some(q) =>
      if q < 1 then st
      else if 0 <= index < |st.items| then SetQuantityAt(st, index, ClampQuantity(q))
      else st
  }

  /** Typing a positive decimal number (with any surrounding blanks before it) sets the
      quantity to that number, capped at 99. */
  lemma TypedNumberSetsQuantity(st: CartState, index: int, ws: string, n: nat)
    requires 0 <= index < |st.items| && n >= 1
    requires AllSpace(ws, IsJsSpace)
    ensures HandleQuantityInput(st, index, ws + Decimal(n)).items[index].quantity == Min(n, MaxQuantity)
  {
    JsParseIntReadsPaddedDecimal(ws, n);
  }

  // ------------------------------------------------------------------ removal

  /** Where `splice(index, 1)` starts: a negative index counts from the end, and the
      start is clamped to [0, len]. */
  function SpliceStart(len: nat, index: int): (k: nat)
    ensures k <= len
    ensures 0 <= index <= len ==> k == index
    ensures -(len as int) <= index < 0 ==> k == len + index
    ensures index > len ==> k == len
    ensures index < -(len as int) ==> k == 0
  {
    if index < 0 then (if len + index < 0 then 0 else len + index)
    else if index > len then len
    else index
  }

  /** `items.splice(index, 1)`: removes the one item at the splice start, if any,
      keeping the others in their original order. */
  function Splice(items: Items, index: int): (r: Items)
    ensures var k := SpliceStart(|items|, index);
            k < |items| ==> r == items[..k] + items[k + 1..]
    ensures SpliceStart(|items|, index) == |items| ==> r == items
  {
    var k := SpliceStart(|items|, index);
    if k < |items| then items[..k] + items[k + 1..] else items
  }

  /** A splice at a valid position drops exactly that item and shifts the later ones down. */
  lemma SpliceAtValidIndex(items: Items, index: int)
    requires 0 <= index < |items|
    ensures |Splice(items, index)| == |items| - 1
    ensures forall j :: 0 <= j < index ==> Splice(items, index)[j] == items[j]
    ensures forall j :: index <= j < |items| - 1 ==> Splice(items, index)[j] == items[j + 1]
    ensures multiset(Splice(items, index)) + multiset{items[index]} == multiset(items)
  {
    var r := Splice(items, index);
    assert items == items[..index] + [items[index]] + items[index + 1..];
    assert r == items[..index] + items[index + 1..];
  }

  datatype Severity = Success | Error | Info

  /** The notification texts, by meaning. `SubmitFailed(None)` is the fixed generic
      failure text shown when the server gives no message. */
  datatype Message =
    | ItemRemoved
    | FillRequiredFields
    | CartIsEmpty
    | OrderPlaced(orderId: string)
    | SubmitFailed(reason: Option<string>)

  datatype Notice = Notice(severity: Severity, message: Message)

  datatype Removal = Removal(state: CartState, notice: Option<Notice>)

  /** `removeFromCart`: a declined confirmation changes nothing; a confirmed one splices
      the item out, writes the cart and announces the removal. */
  function RemoveFromCart(st: CartState, index: int, confirmed: bool): (r: Removal)
    ensures !confirmed ==> r.state == st && r.notice == None
    ensures confirmed ==> && r.state.items == Splice(st.items, index)
                          && r.state.slot == Stored(r.state.items)
                          && r.notice == Some(Notice(Success, ItemRemoved))
    ensures confirmed && 0 <= index < |st.items| ==> |r.state.items| == |st.items| - 1
    ensures AllInRange(st.items) ==> AllInRange(r.state.items)
    ensures Synced(st) ==> Synced(r.state)
  {
    if !confirmed then Removal(st, None)
    else
      var items := Splice(st.items, index);
      Removal(CartState(items, Save(items)), Some(Notice(Success, ItemRemoved)))
  }

  // ------------------------------------------------------------------ summary

  function LineTotal(item: LineItem): int {
    item.price * item.quantity
  }

  /** Σ price × quantity over the cart. */
  function Subtotal(items: Items): int
    decreases |items|
  {
    if |items| == 0 then 0 else LineTotal(items[0]) + Subtotal(items[1..])
  }

  lemma {:induction false} SubtotalAppend(a: Items, b: Items)
    ensures Subtotal(a + b) == Subtotal(a) + Subtotal(b)
    decreases |a|
  {
    if |a| == 0 {
      assert a + b == b;
    } else {
      assert (a + b)[1..] == a[1..] + b;
      SubtotalAppend(a[1..], b);
    }
  }

  /** The `reduce` that computes the subtotal, left to right. */
  method SumLineTotals(items: Items) returns (sum: int)
    ensures sum == Subtotal(items)
  {
    sum := 0;
    var i := 0;
    while i < |items|
      invariant 0 <= i <= |items|
      invariant sum == Subtotal(items[..i])
    {
      assert items[..i + 1] == items[..i] + [items[i]];
      SubtotalAppend(items[..i], [items[i]]);
      sum := sum + items[i].price * items[i].quantity;
      i := i + 1;
    }
    assert items[..i] == items;
  }

  /** Replacing one item changes the subtotal by the difference of the two line totals. */
  lemma SubtotalReplace(items: Items, i: int, x: LineItem)
    requires 0 <= i < |items|
    ensures Subtotal(items[i := x]) == Subtotal(items) - LineTotal(items[i]) + LineTotal(x)
  {
    assert items == items[..i] + [items[i]] + items[i + 1..];
    assert items[i := x] == items[..i] + [x] + items[i + 1..];
    SubtotalAppend(items[..i] + [items[i]], items[i + 1..]);
    SubtotalAppend(items[..i], [items[i]]);
    SubtotalAppend(items[..i] + [x], items[i + 1..]);
    SubtotalAppend(items[..i], [x]);
  }

  /** A stepper click that applies moves the subtotal by exactly price × change. */
  lemma StepMovesSubtotal(st: CartState, index: int, change: int)
    requires ValidDelta(st.items, index, change)
    ensures Subtotal(UpdateCartQuantity(st, index, change).items)
            == Subtotal(st.items) + st.items[index].price * change
  {
    var x := st.items[index].(quantity := st.items[index].quantity + change);
    SubtotalReplace(st.items, index, x);
    assert UpdateCartQuantity(st, index, change).items == st.items[index := x];
  }

  /** A confirmed removal at a valid index takes that item's line total off the subtotal. */
  lemma RemovalLowersSubtotal(st: CartState, index: int)
    requires 0 <= index < |st.items|
    ensures Subtotal(RemoveFromCart(st, index, true).state.items)
            == Subtotal(st.items) - LineTotal(st.items[index])
  {
    var items := st.items;
    assert items == items[..index] + [items[index]] + items[index + 1..];
    SubtotalAppend(items[..index] + [items[index]], items[index + 1..]);
    SubtotalAppend(items[..index], [items[index]]);
    SubtotalAppend(items[..index], items[index + 1..]);
  }

  /** The figures `updateSummary` writes into the page, and the submit button's state. */
  datatype Summary = Summary(subtotal: int, delivery: int, grandTotal: int, submitDisabled: bool)

  /** `updateSummary`: the fee is charged only on a non-empty cart, the grand total adds
      it to the subtotal, and an empty cart disables submission. */
  function UpdateSummary(items: Items): (s: Summary)
    ensures s.subtotal == Subtotal(items)
    ensures s.delivery == (if |items| > 0 then DeliveryFee else 0)
    ensures s.grandTotal == s.subtotal + s.delivery
    ensures s.submitDisabled <==> |items| == 0
  {
    var subtotal := Subtotal(items);
    var fee := if |items| > 0 then DeliveryFee else 0;
    Summary(subtotal, fee, subtotal + fee, |items| == 0)
  }

  /** The sum of the unit prices, one per line. */
  function PriceSum(items: Items): nat
    decreases |items|
  {
    if |items| == 0 then 0 else items[0].price + PriceSum(items[1..])
  }

  /** With every quantity in [1, 99] each line costs between one and 99 units, so the
      subtotal lies between the price sum and 99 times it. */
  lemma {:induction false} SubtotalBounds(items: Items)
    requires AllInRange(items)
    ensures PriceSum(items) <= Subtotal(items) <= MaxQuantity * PriceSum(items)
    decreases |items|
  {
    if |items| > 0 {
      SubtotalBounds(items[1..]);
      LineTotalBounds(items[0]);
    }
  }

  lemma LineTotalBounds(item: LineItem)
    requires QuantityInRange(item.quantity)
    ensures item.price <= LineTotal(item) <= MaxQuantity * item.price
  {
    var p: int := item.price;
    var q := item.quantity;
    assert p * q - p == p * (q - 1) >= 0;
    assert MaxQuantity * p - p * q == p * (MaxQuantity - q) >= 0;
  }

  /** Two lines, 50 × 2 and 30 × 1: subtotal 130, fee 20, total 150. */
  lemma SummaryExample()
    ensures var items := [LineItem(None, "a", "", 50, 2), LineItem(None, "b", "", 30, 1)];
            UpdateSummary(items) == Summary(130, 20, 150, false)
  {
    var items := [LineItem(None, "a", "", 50, 2), LineItem(None, "b", "", 30, 1)];
    assert items[1..][1..] == [];
  }

  // ------------------------------------------------------------ row steppers

  /** The two per-row stepper buttons: minus disabled at 1 or less, plus at 99 or more. */
  datatype Stepper = Stepper(minusDisabled: bool, plusDisabled: bool)

  function StepperOf(item: LineItem): Stepper {
    Stepper(item.quantity <= MinQuantity, item.quantity >= MaxQuantity)
  }

  /** For an in-range item, a stepper button is disabled exactly when clicking it would be
      a no-op. */
  lemma StepperMatchesUpdate(items: Items, index: int)
    requires 0 <= index < |items| && QuantityInRange(items[index].quantity)
    ensures StepperOf(items[index]).minusDisabled <==> !ValidDelta(items, index, -1)
    ensures StepperOf(items[index]).plusDisabled <==> !ValidDelta(items, index, 1)
  {
  }

  // ----------------------------------------------------------- checkout form

  datatype Form = Form(name: string, phone: string, address: string, notes: string)

  const EmptyForm := Form("", "", "", "")

  /** Name, phone and address each hold a non-blank character. */
  predicate FieldsFilled(form: Form) {
    && !AllSpace(form.name, IsJsSpace)
    && !AllSpace(form.phone, IsJsSpace)
    && !AllSpace(form.address, IsJsSpace)
  }

  /** The required fields are filled and the cart is not empty. */
  predicate ReadyToSend(form: Form, items: Items) {
    FieldsFilled(form) && |items| > 0
  }

  /** `validateForm`: the submit button is enabled only when name, phone and address each
      hold a non-blank character and the cart is not empty; notes are optional. */
  function ValidateForm(form: Form, items: Items): (disabled: bool)
    ensures !disabled <==> ReadyToSend(form, items)
  {
    var allFilled := JsTrim(form.name) != "" && JsTrim(form.phone) != "" && JsTrim(form.address) != "";
    !allFilled || |items| == 0
  }

  /** `updateSummary` re-enables the button for any non-empty cart, so after a cart
      mutation the button can be enabled while a required field is still blank. */
  lemma SummaryIgnoresForm(form: Form, items: Items)
    requires |items| > 0 && AllSpace(form.name, IsJsSpace)
    ensures !UpdateSummary(items).submitDisabled
    ensures ValidateForm(form, items)
  {
  }

  // ------------------------------------------------------------- submission

  datatype OrderLine = OrderLine(id: int, name: string, qty: int, price: nat)
  datatype Customer = Customer(name: string, phone: string, address: string, notes: string)
  datatype Totals = Totals(subtotal: int, delivery: int, total: int)
  datatype Payload = Payload(items: seq<OrderLine>, customer: Customer, totals: Totals)

  /** The endpoint's answer: success with the server's order identifier, a non-success
      status with an optional error message, or a transport or body-parsing error. */
  datatype Response = Accepted(orderId: string) | Declined(message: Option<string>) | NetworkFailure(reason: string)

  /** The submit button: whether it is disabled and whether it shows the sending label. */
  datatype Button = Button(disabled: bool, sending: bool)

  datatype Checkout = Checkout(cart: CartState, form: Form, button: Button)

  /** What one press of the submit button leads to: the resulting checkout state, the
      notification, the payload sent (if any) and whether navigation home is scheduled. */
  datatype Submission = Submission(after: Checkout, notice: Notice, sent: Option<Payload>, goHome: bool)

  function TrimmedCustomer(form: Form): Customer {
    Customer(JsTrim(form.name), JsTrim(form.phone), JsTrim(form.address), JsTrim(form.notes))
  }

  /** `{ id: i.id || 0, name: i.title, qty: i.quantity, price: i.price }`. */
  function OrderLineOf(item: LineItem): OrderLine {
    OrderLine(item.id.GetOr(0), item.title, item.quantity, item.price)
  }

  /** The request body: one order line per cart item in cart order, the trimmed contact
      fields, and totals that always include the delivery fee. */
  function BuildPayload(items: Items, customer: Customer): (p: Payload)
    ensures |p.items| == |items|
    ensures forall i :: 0 <= i < |items| ==>
              && p.items[i].id == (if items[i].id.Some? then items[i].id.value else 0)
              && p.items[i].name == items[i].title
              && p.items[i].qty == items[i].quantity
              && p.items[i].price == items[i].price
    ensures p.customer == customer
    ensures p.totals.subtotal == Subtotal(items)
    ensures p.totals.delivery == DeliveryFee
    ensures p.totals.total == p.totals.subtotal + DeliveryFee
  {
    var subtotal := Subtotal(items);
    Payload(seq(|items|, i requires 0 <= i < |items| => OrderLineOf(items[i])),
            customer, Totals(subtotal, DeliveryFee, subtotal + DeliveryFee))
  }

  /** Σ qty × price over order lines, as a receiver of the payload would recompute it. */
  function LinesTotal(lines: seq<OrderLine>): int
    decreases |lines|
  {
    if |lines| == 0 then 0 else lines[0].qty * lines[0].price + LinesTotal(lines[1..])
  }

  lemma {:induction false} LinesTotalOfCart(items: Items, lines: seq<OrderLine>)
    requires |lines| == |items|
    requires forall i :: 0 <= i < |items| ==> lines[i] == OrderLineOf(items[i])
    ensures LinesTotal(lines) == Subtotal(items)
    decreases |items|
  {
    if |items| > 0 {
      LinesTotalOfCart(items[1..], lines[1..]);
    }
  }

  /** The payload is self-consistent, and for the non-empty carts it is ever built from it
      carries exactly the totals the summary shows. */
  lemma PayloadAgreesWithSummary(items: Items, customer: Customer)
    requires |items| > 0
    ensures var p := BuildPayload(items, customer);
            && LinesTotal(p.items) == p.totals.subtotal
            && p.totals == Totals(UpdateSummary(items).subtotal, UpdateSummary(items).delivery,
                                  UpdateSummary(items).grandTotal)
  {
    var p := BuildPayload(items, customer);
    LinesTotalOfCart(items, p.items);
  }

  /** The error notice for a failed request: the server's message when it gives a
      non-empty one, the transport error's text, or the generic failure text. */
  function FailureNotice(response: Response): (n: Notice)
    requires !response.Accepted?
    ensures n.severity == Error && n.message.SubmitFailed?
    ensures response.NetworkFailure? ==> n.message == SubmitFailed(Some(response.reason))
    ensures response.Declined? && response.message.Some? && response.message.value != "" ==>
              n.message == SubmitFailed(response.message)
    ensures response.Declined? && (response.message.None? || response.message.value == "") ==>
              n.message == SubmitFailed(None)
  {
    match response
    case Declined(message) =>
      Notice(Error, SubmitFailed(if message.Some? && message.value != "" then message else None))
    case NetworkFailure(reason) => Notice(Error, SubmitFailed(Some(reason)))
  }

  /** What the response does once the payload has been sent: success clears the cart,
      its storage key and the form, and schedules the return home; any failure only
      re-enables the button. */
  function Respond(c: Checkout, payload: Payload, response: Response): (r: Submission)
    ensures r.sent == Some(payload)
    ensures response.Accepted? ==>
              && r.after.cart == CartState([], Absent)
              && r.after.form == EmptyForm
              && r.after.button.disabled
              && r.notice == Notice(Success, OrderPlaced(response.orderId))
              && r.goHome
    ensures !response.Accepted? ==>
              && r.after.cart == c.cart
              && r.after.form == c.form
              && !r.after.button.disabled
              && r.notice == FailureNotice(response)
              && !r.goHome
  {
    match response
    case Accepted(orderId) =>
      Submission(Checkout(CartState([], Absent), EmptyForm, Button(true, true)),
                 Notice(Success, OrderPlaced(orderId)), Some(payload), true)
    case _ => Submission(c.(button := Button(false, false)), FailureNotice(response), Some(payload), false)
  }

  /** `submitOrder`: the guards re-check the form and the cart; once both pass, the
      payload is sent and the response decides between clearing everything (success) and
      re-enabling the button with cart and form untouched (failure). */
  function SubmitOrder(c: Checkout, response: Response): (r: Submission)
    ensures r.sent.Some? <==> !ValidateForm(c.form, c.cart.items)
    ensures r.sent.None? ==> r.after == c && r.notice.severity == Error && !r.goHome
    ensures !FieldsFilled(c.form) ==> r.notice == Notice(Error, FillRequiredFields)
    ensures FieldsFilled(c.form) && |c.cart.items| == 0 ==> r.notice == Notice(Error, CartIsEmpty)
    ensures r.sent.Some? ==> r.sent.value == BuildPayload(c.cart.items, TrimmedCustomer(c.form))
    ensures r.sent.Some? && response.Accepted? ==>
              && r.after.cart == CartState([], Absent)
              && r.after.form == EmptyForm
              && r.after.button.disabled
              && r.notice == Notice(Success, OrderPlaced(response.orderId))
              && r.goHome
    ensures r.sent.Some? && !response.Accepted? ==>
              && r.after.cart == c.cart
              && r.after.form == c.form
              && !r.after.button.disabled
              && r.notice == FailureNotice(response)
              && !r.goHome
  {
    var customer := TrimmedCustomer(c.form);
    if customer.name == "" || customer.phone == "" || customer.address == "" then
      Submission(c, Notice(Error, FillRequiredFields), None, false)
    else if |c.cart.items| == 0 then
      Submission(c, Notice(Error, CartIsEmpty), None, false)
    else
      Respond(c, BuildPayload(c.cart.items, customer), response)
  }

  /** A press of the submit button either leaves the cart and its storage as they were or
      empties both. */
  lemma SubmitKeepsOrClearsCart(c: Checkout, response: Response)
    ensures || SubmitOrder(c, response).after.cart == c.cart
            || SubmitOrder(c, response).after.cart == CartState([], Absent)
  {
  }

  /** Submitting keeps storage in step with the cart and every quantity in range, whatever
      the server answers. */
  lemma SubmitKeepsCartInvariants(c: Checkout, response: Response)
    ensures Synced(c.cart) ==> Synced(SubmitOrder(c, response).after.cart)
    ensures AllInRange(c.cart.items) ==> AllInRange(SubmitOrder(c, response).after.cart.items)
  {
    SubmitKeepsOrClearsCart(c, response);
  }

  /** A server rejection shows the server's own message, or the generic text when it
      gives none or an empty one. */
  lemma DeclineShowsServerMessage(c: Checkout, message: Option<string>)
    requires ReadyToSend(c.form, c.cart.items)
    ensures message.Some? && message.value != "" ==>
              SubmitOrder(c, Declined(message)).notice.message == SubmitFailed(message)
    ensures message.None? || message.value == "" ==>
              SubmitOrder(c, Declined(message)).notice.message == SubmitFailed(None)
  {
    FailureShowsFailureNotice(c, Declined(message));
  }

  /** A request that never got an answer shows the transport error's own text. */
  lemma NetworkFailureShowsReason(c: Checkout, reason: string)
    requires ReadyToSend(c.form, c.cart.items)
    ensures SubmitOrder(c, NetworkFailure(reason)).notice == Notice(Error, SubmitFailed(Some(reason)))
  {
    FailureShowsFailureNotice(c, NetworkFailure(reason));
  }

  lemma FilledFormSends(c: Checkout, response: Response)
    requires ReadyToSend(c.form, c.cart.items)
    ensures SubmitOrder(c, response).sent.Some?
  {
  }

  lemma FailureShowsFailureNotice(c: Checkout, response: Response)
    requires ReadyToSend(c.form, c.cart.items) && !response.Accepted?
    ensures SubmitOrder(c, response).notice == FailureNotice(response)
  {
    FilledFormSends(c, response);
  }

  // -------------------------------------------------------------------- badge

  /** Σ quantity over the cart (`quantity || 0` is the quantity itself for numbers). */
  function ItemCount(items: Items): int
    decreases |items|
  {
    if |items| == 0 then 0 else items[0].quantity + ItemCount(items[1..])
  }

  lemma {:induction false} ItemCountBounds(items: Items)
    requires AllInRange(items)
    ensures |items| <= ItemCount(items) <= MaxQuantity * |items|
    decreases |items|
  {
    if |items| > 0 {
      ItemCountBounds(items[1..]);
    }
  }

  /** The cart badge after a refresh: left as it was, removed, or showing a count. */
  datatype Badge = Untouched | Hidden | Shown(count: int)

  /** `updateCartCounter`: re-reads storage; unparsable storage throws before the badge is
      touched, a page without the cart link is left alone, and otherwise the badge shows
      the item count exactly when it is positive. */
  function CartCounter(slot: Slot, hasCartLink: bool): (b: Badge)
    ensures b == Untouched <==> slot.Corrupt? || !hasCartLink
    ensures b.Shown? <==> !slot.Corrupt? && hasCartLink && ItemCount(Decode(slot)) > 0
    ensures b.Shown? ==> b.count == ItemCount(Decode(slot)) && b.count > 0
  {
    if slot.Corrupt? || !hasCartLink then Untouched
    else
      var total := ItemCount(Decode(slot));
      if total > 0 then Shown(total) else Hidden
  }

  /** A stored cart with in-range quantities shows a badge iff it is non-empty, and the
      count lies between its length and 99 times its length. */
  lemma BadgeTracksStoredCart(items: Items)
    requires AllInRange(items)
    ensures CartCounter(Stored(items), true).Shown? <==> |items| > 0
    ensures CartCounter(Stored(items), true).Shown? ==>
              |items| <= CartCounter(Stored(items), true).count <= MaxQuantity * |items|
  {
    ItemCountBounds(items);
  }

  // ------------------------------------------------------------------- traces

  datatype CartEvent =
    | StepClicked(index: int, change: int)
    | QuantityTyped(index: int, text: string)
    | RemoveClicked(index: int, confirmed: bool)

  function Apply(st: CartState, e: CartEvent): CartState {
    match e
    case StepClicked(index, change) => UpdateCartQuantity(st, index, change)
    case QuantityTyped(index, text) => HandleQuantityInput(st, index, text)
    case RemoveClicked(index, confirmed) => RemoveFromCart(st, index, confirmed).state
  }

  function Run(st: CartState, events: seq<CartEvent>): CartState
    decreases |events|
  {
    if |events| == 0 then st else Run(Apply(st, events[0]), events[1..])
  }

  /** Whatever the user does to the cart, every quantity stays within [1, 99]. */
  lemma {:induction false} RunKeepsQuantitiesInRange(st: CartState, events: seq<CartEvent>)
    requires AllInRange(st.items)
    ensures AllInRange(Run(st, events).items)
    decreases |events|
  {
    if |events| > 0 {
      RunKeepsQuantitiesInRange(Apply(st, events[0]), events[1..]);
    }
  }

  /** Every mutation rewrites storage with the whole cart, so memory and storage agree
      after any sequence of user actions. */
  lemma {:induction false} RunKeepsStorageInSync(st: CartState, events: seq<CartEvent>)
    requires Synced(st)
    ensures Synced(Run(st, events))
    decreases |events|
  {
    if |events| > 0 {
      RunKeepsStorageInSync(Apply(st, events[0]), events[1..]);
    }
  }

  /** From a page load of an in-range stored cart, storage never holds an out-of-range
      quantity (in particular never a zero) whatever the user does. */
  lemma StoredQuantitiesStayInRange(slot: Slot, events: seq<CartEvent>)
    requires AllInRange(Decode(slot))
    ensures AllInRange(Decode(Run(LoadCart(slot), events).slot))
  {
    RunKeepsQuantitiesInRange(LoadCart(slot), events);
    RunKeepsStorageInSync(LoadCart(slot), events);
  }
}

=== FILE: components.dfy ===
/** The page composer that injects the shared header and footer: the base path chosen
    from the page's directory, the rule that rewrites relative `href`/`src` values in
    the fragments, active-link selection by file name, the mobile-menu flags and their
    event handlers, and the header's fallback cart badge. */
module Components {
  import opened Options
  import opened Text
  import opened Site
  import Cart

  const PagesMarker := "/pages/"
  const MobileBreakpoint := 768

  // ---------------------------------------------------------------- base path

  /** `pathname.replace(/\\/g, '/')`. */
  function NormalizePath(pathname: string): string {
    ReplaceChar(pathname, '\\', '/')
  }

  predicate IsSlash(c: char) {
    c == '/' || c == '\\'
  }

  /** The raw path names a `pages` directory at `i`, with either kind of separator
      around the name. */
  predicate PagesDirAt(pathname: string, i: int) {
    && 0 <= i && i + 7 <= |pathname|
    && IsSlash(pathname[i]) && IsSlash(pathname[i + 6])
    && pathname[i + 1] == 'p' && pathname[i + 2] == 'a' && pathname[i + 3] == 'g'
    && pathname[i + 4] == 'e' && pathname[i + 5] == 's'
  }

  lemma PagesMarkerAt(pathname: string, i: int)
    ensures OccursAt(NormalizePath(pathname), PagesMarker, i) <==> PagesDirAt(pathname, i)
  {
    var n := NormalizePath(pathname);
    if 0 <= i && i + 7 <= |pathname| {
      var w := n[i..i + 7];
      assert forall k :: 0 <= k < 7 ==> w[k] == n[i + k];
      if PagesDirAt(pathname, i) {
        assert w == PagesMarker;
      }
      if OccursAt(n, PagesMarker, i) {
        assert w[0] == '/' && w[1] == 'p' && w[2] == 'a' && w[3] == 'g';
        assert w[4] == 'e' && w[5] == 's' && w[6] == '/';
      }
    }
  }

  /** `basePath`: `'../'` exactly when the page lives under a `pages` directory, whichever
      separator the browser reports; `'./'` otherwise. */
  function BasePath(pathname: string): (base: string)
    ensures base == "../" || base == "./"
    ensures base == "../" <==> exists i :: PagesDirAt(pathname, i)
  {
    if Contains(NormalizePath(pathname), PagesMarker) then
      assert forall i :: OccursAt(NormalizePath(pathname), PagesMarker, i) ==> PagesDirAt(pathname, i) by {
        forall i | OccursAt(NormalizePath(pathname), PagesMarker, i) ensures PagesDirAt(pathname, i) {
          PagesMarkerAt(pathname, i);
        }
      }
      "../"
    else
      assert forall i :: PagesDirAt(pathname, i) ==> OccursAt(NormalizePath(pathname), PagesMarker, i) by {
        forall i | PagesDirAt(pathname, i) ensures OccursAt(NormalizePath(pathname), PagesMarker, i) {
          PagesMarkerAt(pathname, i);
        }
      }
      "./"
  }

  // -------------------------------------------------------------- URL rewrite

  /** `/^[a-zA-Z]+:\/\//` matches with the letters ending at `k`. */
  predicate SchemeEndsAt(val: string, k: int) {
    && 1 <= k && k + 3 <= |val|
    && (forall j :: 0 <= j < k ==> IsAsciiLetter(val[j]))
    && val[k] == ':' && val[k + 1] == '/' && val[k + 2] == '/'
  }

  ghost predicate AbsoluteUrl(val: string) {
    exists k :: SchemeEndsAt(val, k)
  }

  /** The length of the longest all-letter prefix. */
  function LeadingLetters(s: string): (n: nat)
    ensures n <= |s|
    ensures forall j :: 0 <= j < n ==> IsAsciiLetter(s[j])
    ensures n < |s| ==> !IsAsciiLetter(s[n])
    decreases |s|
  {
    if |s| > 0 && IsAsciiLetter(s[0]) then 1 + LeadingLetters(s[1..]) else 0
  }

  /** The regular-expression test, as a scan: the letters run to a `://`. */
  function HasScheme(val: string): (b: bool)
    ensures b <==> AbsoluteUrl(val)
  {
    var n := LeadingLetters(val);
    var b := n >= 1 && n + 3 <= |val| && val[n] == ':' && val[n + 1] == '/' && val[n + 2] == '/';
    assert b ==> SchemeEndsAt(val, n);
    assert forall k :: SchemeEndsAt(val, k) ==> k == n by {
      forall k | SchemeEndsAt(val, k) ensures k == n {
      }
    }
    b
  }

  /** Values the rewrite leaves alone: empty, fragment, `data:`, `mailto:`, `tel:`,
      absolute and root-relative. */
  ghost predicate KeptAsIs(val: string) {
    || val == ""
    || StartsWith(val, "#") || StartsWith(val, "data:")
    || StartsWith(val, "mailto:") || StartsWith(val, "tel:")
    || AbsoluteUrl(val)
    || StartsWith(val, "/")
  }

  /** The per-attribute rewrite of `loadComponent`: kept values stay as they are, a leading
      `./` is replaced by the base path, any other value is prefixed with it. */
  function RewriteUrl(val: string, base: string): (r: string)
    ensures KeptAsIs(val) ==> r == val
    ensures !KeptAsIs(val) && StartsWith(val, "./") ==> r == base + val[2..]
    ensures !KeptAsIs(val) && !StartsWith(val, "./") ==> r == base + val
  {
    if val == "" then val
    else if StartsWith(val, "#") || StartsWith(val, "data:") || StartsWith(val, "mailto:") || StartsWith(val, "tel:") then val
    else if HasScheme(val) then val
    else if StartsWith(val, "/") then val
    else if StartsWith(val, "./") then base + val[2..]
    else base + val
  }

  /** A value that starts with `.` is never kept as is. */
  lemma DotValueIsRewritten(val: string)
    requires |val| > 0 && val[0] == '.'
    ensures !KeptAsIs(val)
  {
  }

  /** On a top-level page a `./`-prefixed value is already what the rewrite produces. */
  lemma CurrentDirValueIsFixedPoint(val: string)
    requires StartsWith(val, "./")
    ensures RewriteUrl(val, "./") == val
  {
    DotValueIsRewritten(val);
    assert "./" + val[2..] == val;
  }

  /** On a top-level page, rewriting twice is rewriting once. */
  lemma RewriteAtTopLevelIsIdempotent(val: string)
    ensures RewriteUrl(RewriteUrl(val, "./"), "./") == RewriteUrl(val, "./")
  {
    var r := RewriteUrl(val, "./");
    if !KeptAsIs(val) {
      assert StartsWith(r, "./");
      CurrentDirValueIsFixedPoint(r);
    }
  }

  /** On a page under `pages/`, every rewritten value climbs one directory. */
  lemma RewriteFromPagesClimbs(val: string)
    requires !KeptAsIs(val)
    ensures StartsWith(RewriteUrl(val, "../"), "../")
  {
  }

  /** The rewrite never changes a value's file name, so highlighting by file name sees
      the same names before and after it. */
  lemma RewriteKeepsLastSegment(val: string, base: string)
    requires |base| > 0 && base[|base| - 1] == '/'
    ensures LastSegment(RewriteUrl(val, base)) == LastSegment(val)
  {
    var r := RewriteUrl(val, base);
    if !KeptAsIs(val) {
      if StartsWith(val, "./") {
        var rest := val[2..];
        assert r == base + rest;
        LastSegmentAfterSlash(base, rest);
        assert val == "./" + rest;
        LastSegmentAfterSlash("./", rest);
      } else {
        assert r == base + val;
        LastSegmentAfterSlash(base, val);
      }
    }
  }

  // -------------------------------------------------------- active nav links

  datatype NavLink = NavLink(href: Option<string>, active: bool)

  /** The page's file name, lower-cased; `index.html` when the path ends in a `/`. */
  function CurrentFile(pathname: string): (f: string)
    ensures |f| > 0
    ensures LastSegment(NormalizePath(pathname)) == [] ==> f == IndexPage
    ensures LastSegment(NormalizePath(pathname)) != [] ==> f == AsciiLower(LastSegment(NormalizePath(pathname)))
  {
    var seg := LastSegment(NormalizePath(pathname));
    if seg == [] then IndexPage else AsciiLower(seg)
  }

  /** A link's comparison key: the lower-cased file name of its `href` (missing counts
      as empty). */
  function LinkKey(href: Option<string>): string {
    AsciiLower(LastSegment(href.GetOr("")))
  }

  /** Clear every link, then mark the ones whose file name matches the page's. */
  function SelectActiveLinks(links: seq<NavLink>, pathname: string): (r: seq<NavLink>)
    ensures |r| == |links|
    ensures forall i :: 0 <= i < |links| ==> r[i].href == links[i].href
    ensures forall i :: 0 <= i < |links| ==> (r[i].active <==> LinkKey(links[i].href) == CurrentFile(pathname))
  {
    seq(|links|, i requires 0 <= i < |links| =>
      NavLink(links[i].href, LinkKey(links[i].href) == CurrentFile(pathname)))
  }

  /** The previous highlight has no influence: links that differ only in their flags come
      out identical. */
  lemma SelectionIgnoresPriorFlags(a: seq<NavLink>, b: seq<NavLink>, pathname: string)
    requires |a| == |b| && forall i :: 0 <= i < |a| ==> a[i].href == b[i].href
    ensures SelectActiveLinks(a, pathname) == SelectActiveLinks(b, pathname)
  {
  }

  /** At a directory URL the page key is `index.html`. */
  lemma CurrentFileAtDirectory(pathname: string)
    requires |pathname| > 0 && pathname[|pathname| - 1] == '/'
    ensures CurrentFile(pathname) == IndexPage
  {
    var n := NormalizePath(pathname);
    assert n[|n| - 1] == '/';
  }

  /** A lower-case file name behind any directory prefix is its own link key. */
  lemma LinkKeyOfPrefixedName(prefix: string, name: string)
    requires |prefix| > 0 && prefix[|prefix| - 1] == '/'
    requires forall i :: 0 <= i < |name| ==> name[i] != '/' && !IsAsciiUpper(name[i])
    ensures LinkKey(Some(prefix + name)) == name
  {
    LastSegmentAfterSlash(prefix, name);
    LastSegmentOfPlainName(name);
    AsciiLowerKeepsLowerCase(name);
  }

  /** At a directory URL the `index.html` link is the one highlighted, whatever its
      relative prefix. */
  lemma DirectoryPathSelectsIndex(pathname: string, prefix: string)
    requires |pathname| > 0 && pathname[|pathname| - 1] == '/'
    requires |prefix| > 0 && prefix[|prefix| - 1] == '/'
    ensures SelectActiveLinks([NavLink(Some(prefix + IndexPage), false)], pathname)[0].active
  {
    CurrentFileAtDirectory(pathname);
    LinkKeyOfPrefixedName(prefix, IndexPage);
  }

  function RewriteHref(link: NavLink, base: string): NavLink {
    link.(href := if link.href.Some? then Some(RewriteUrl(link.href.value, base)) else None)
  }

  /** Highlighting the header's links after the URL rewrite marks the same links as
      highlighting them before it. */
  lemma SelectionSurvivesRewrite(links: seq<NavLink>, pathname: string)
    ensures var base := BasePath(pathname);
            var rewritten := seq(|links|, i requires 0 <= i < |links| => RewriteHref(links[i], base));
            forall i :: 0 <= i < |links| ==>
              SelectActiveLinks(rewritten, pathname)[i].active == SelectActiveLinks(links, pathname)[i].active
  {
    var base := BasePath(pathname);
    forall i | 0 <= i < |links| && links[i].href.Some?
      ensures LastSegment(RewriteUrl(links[i].href.value, base)) == LastSegment(links[i].href.value)
    {
      RewriteKeepsLastSegment(links[i].href.value, base);
    }
  }

  // ------------------------------------------------------------- mobile menu

  /** The three `active`/`mobile-menu-open` classes: on the button, the nav menu, the body. */
  datatype MenuFlags = MenuFlags(button: bool, nav: bool, body: bool)

  /** Which of the button and the nav menu exist, and the current flags. */
  datatype Header = Header(hasButton: bool, hasNav: bool, flags: MenuFlags)

  const Closed := MenuFlags(false, false, false)

  /** The three classes agree: the menu is either fully open or fully closed. */
  predicate Coherent(h: Header) {
    h.flags.button == h.flags.nav && h.flags.nav == h.flags.body
  }

  /** `toggleMobileMenu`: flips all three classes together, or does nothing when the button
      or the menu is missing. */
  function ToggleMobileMenu(h: Header): (r: Header)
    ensures r.hasButton == h.hasButton && r.hasNav == h.hasNav
    ensures !(h.hasButton && h.hasNav) ==> r == h
    ensures h.hasButton && h.hasNav ==>
              r.flags == MenuFlags(!h.flags.button, !h.flags.nav, !h.flags.body)
    ensures Coherent(h) ==> Coherent(r)
  {
    if !h.hasButton || !h.hasNav then h
    else h.(flags := MenuFlags(!h.flags.button, !h.flags.nav, !h.flags.body))
  }

  /** Where a click lands: on (or inside) the menu button, on a `.nav-link`, or elsewhere;
      `insideNav` says whether the target lies within the nav menu. */
  datatype Target = MenuButton | NavLinkTarget(insideNav: bool) | Elsewhere(insideNav: bool)

  datatype MenuEvent = Click(target: Target, width: int) | Resize(width: int)

  function InsideNav(t: Target): bool {
    match t
    case MenuButton => false
    case NavLinkTarget(inside) => inside
    case Elsewhere(inside) => inside
  }

  /** The handler on each `.nav-link`: on a narrow screen an open menu is toggled shut. */
  function OnNavLinkClick(h: Header, width: int): Header {
    if width < MobileBreakpoint && h.hasNav && h.flags.nav then ToggleMobileMenu(h) else h
  }

  /** The document handler: on a narrow screen a click outside both the button and the
      menu toggles an open menu shut. */
  function OnDocumentClick(h: Header, target: Target, width: int): Header {
    if && width < MobileBreakpoint && h.hasButton && !target.MenuButton?
       && h.hasNav && !InsideNav(target) && h.flags.nav
    then ToggleMobileMenu(h)
    else h
  }

  /** The resize handler: on a wide screen an open menu has all three classes removed.
      Without the button the first removal throws and nothing changes. */
  function OnResize(h: Header, width: int): Header {
    if width >= MobileBreakpoint && h.hasNav && h.flags.nav && h.hasButton then h.(flags := Closed)
    else h
  }

  /** One event: a click runs the target's own handler, then bubbles to the document. */
  function Dispatch(h: Header, e: MenuEvent): (r: Header)
    ensures r.hasButton == h.hasButton && r.hasNav == h.hasNav
    ensures Coherent(h) ==> Coherent(r)
    ensures e.Resize? && e.width < MobileBreakpoint ==> r == h
    ensures e.Resize? && e.width >= MobileBreakpoint && h.hasButton && h.hasNav ==> !r.flags.nav
    ensures e.Resize? && e.width >= MobileBreakpoint && h.hasButton && h.hasNav && Coherent(h) ==>
              r.flags == Closed
    ensures e.Click? && e.target.MenuButton? && h.hasButton && h.hasNav ==>
              r.flags == MenuFlags(!h.flags.button, !h.flags.nav, !h.flags.body)
    ensures (&& e.Click? && !e.target.MenuButton? && e.width < MobileBreakpoint
             && (e.target.NavLinkTarget? || !e.target.insideNav)
             && h.hasButton && h.hasNav && Coherent(h)) ==> r.flags == Closed
    ensures e.Click? && !e.target.MenuButton? && e.width >= MobileBreakpoint ==> r == h
    ensures e.Click? && e.target.Elsewhere? && e.target.insideNav ==> r == h
    ensures e.Click? && !e.target.MenuButton? && !h.flags.nav ==> r == h
    ensures e.Resize? && !h.flags.nav ==> r == h
    ensures !(h.hasButton && h.hasNav) ==> r == h
  {
    match e
    case Resize(width) => OnResize(h, width)
    case Click(target, width) =>
      var h' := match target
                case MenuButton => ToggleMobileMenu(h)
                case NavLinkTarget(_) => OnNavLinkClick(h, width)
                case Elsewhere(_) => h;
      OnDocumentClick(h', target, width)
  }

  function RunMenu(h: Header, events: seq<MenuEvent>): Header
    decreases |events|
  {
    if |events| == 0 then h else RunMenu(Dispatch(h, events[0]), events[1..])
  }

  /** Whatever sequence of clicks and resizes happens, the button, menu and body classes
      never disagree. */
  lemma {:induction false} MenuStaysCoherent(h: Header, events: seq<MenuEvent>)
    requires Coherent(h)
    ensures Coherent(RunMenu(h, events))
    decreases |events|
  {
    if |events| > 0 {
      MenuStaysCoherent(Dispatch(h, events[0]), events[1..]);
    }
  }

  /** Without the button or the menu no event ever changes any class. */
  lemma {:induction false} IncompleteHeaderNeverChanges(h: Header, events: seq<MenuEvent>)
    requires !h.hasButton || !h.hasNav
    ensures RunMenu(h, events) == h
    decreases |events|
  {
    if |events| > 0 {
      assert Dispatch(h, events[0]) == h;
      IncompleteHeaderNeverChanges(h, events[1..]);
    }
  }

  // ------------------------------------------------------------ cart badge

  /** `updateCartBadge`, the header's fallback: like the cart counter, but the badge is
      only ever added on the cart page. */
  function FallbackBadge(slot: Cart.Slot, hasCartLink: bool, isCartPage: bool): (b: Cart.Badge)
    ensures b == Cart.Untouched <==> slot.Corrupt? || !hasCartLink
    ensures b.Shown? <==> !slot.Corrupt? && hasCartLink && isCartPage && Cart.ItemCount(Cart.Decode(slot)) > 0
    ensures b.Shown? ==> b.count == Cart.ItemCount(Cart.Decode(slot)) && b.count > 0
  {
    if slot.Corrupt? || !hasCartLink then Cart.Untouched
    else
      var total := Cart.ItemCount(Cart.Decode(slot));
      if total > 0 && isCartPage then Cart.Shown(total) else Cart.Hidden
  }

  /** The header refreshes the badge through the cart's counter when the page defines one,
      and through the fallback otherwise. */
  function HeaderBadge(counterDefined: bool, slot: Cart.Slot, hasCartLink: bool, isCartPage: bool): (b: Cart.Badge)
    ensures isCartPage || counterDefined ==> b == Cart.CartCounter(slot, hasCartLink)
    ensures b.Shown? ==> b.count == Cart.ItemCount(Cart.Decode(slot)) && b.count > 0
    ensures !counterDefined && !isCartPage ==> !b.Shown?
  {
    FallbackMatchesCounterOnCartPage(slot, hasCartLink, isCartPage);
    if counterDefined then Cart.CartCounter(slot, hasCartLink) else FallbackBadge(slot, hasCartLink, isCartPage)
  }

  /** The two badge rules agree on the cart page; elsewhere the fallback never shows one. */
  lemma FallbackMatchesCounterOnCartPage(slot: Cart.Slot, hasCartLink: bool, isCartPage: bool)
    ensures isCartPage ==> FallbackBadge(slot, hasCartLink, isCartPage) == Cart.CartCounter(slot, hasCartLink)
    ensures !isCartPage ==> !FallbackBadge(slot, hasCartLink, isCartPage).Shown?
  {
  }

  /** On the cart page the badge does not depend on whether the page defines the cart's
      counter: the header's choice of refresher is invisible there. */
  lemma HeaderBadgeIgnoresCounterOnCartPage(slot: Cart.Slot, hasCartLink: bool)
    ensures HeaderBadge(true, slot, hasCartLink, true) == HeaderBadge(false, slot, hasCartLink, true)
  {
  }

  /** The two refreshers disagree exactly off the cart page, with a readable cart holding
      items and a cart link to badge: the counter shows the count, the fallback hides it. */
  lemma HeaderBadgeDependsOnCounterOffCartPage(slot: Cart.Slot, hasCartLink: bool, isCartPage: bool)
    ensures HeaderBadge(true, slot, hasCartLink, isCartPage) != HeaderBadge(false, slot, hasCartLink, isCartPage)
            <==> !isCartPage && hasCartLink && !slot.Corrupt? && Cart.ItemCount(Cart.Decode(slot)) > 0
    ensures !isCartPage && hasCartLink && !slot.Corrupt? && Cart.ItemCount(Cart.Decode(slot)) > 0 ==>
              && HeaderBadge(true, slot, hasCartLink, isCartPage) == Cart.Shown(Cart.ItemCount(Cart.Decode(slot)))
              && HeaderBadge(false, slot, hasCartLink, isCartPage) == Cart.Hidden
  {
  }
}

=== FILE: load_components.dfy ===
/** The alternate header loader: its `updateActiveLink` predicate, which compares raw `href`
    values with the page's file name through an exact match and a substring test, and
    the two-flag mobile menu wired up by `initMobileMenu`. */
module LoadComponents {
  import opened Options
  import opened Text
  import opened Site

  const HtmlSuffix := ".html"

  /** `pathname.split('/').pop() || 'index.html'`: never empty. */
  function CurrentPage(pathname: string): (page: string)
    ensures |page| > 0
    ensures LastSegment(pathname) != [] ==> page == LastSegment(pathname)
    ensures LastSegment(pathname) == [] ==> page == IndexPage
  {
    var seg := LastSegment(pathname);
    if seg == [] then IndexPage else seg
  }

  /** The three-way condition under which a link is marked active. */
  predicate LinkMatches(href: string, page: string) {
    || href == page
    || (page == "" && href == IndexPage)
    || (Contains(page, ReplaceFirst(href, HtmlSuffix, "")) && href != IndexPage)
  }

  /** The middle disjunct never fires, because the page name is never empty. */
  lemma EmptyPageDisjunctIsDead(href: string, pathname: string)
    ensures var page := CurrentPage(pathname);
            LinkMatches(href, page) <==>
              href == page || (Contains(page, ReplaceFirst(href, HtmlSuffix, "")) && href != IndexPage)
  {
  }

  /** The home link is active on the page named exactly `index.html` and nowhere else. */
  lemma IndexLinkOnlyOnIndexPage(pathname: string)
    ensures LinkMatches(IndexPage, CurrentPage(pathname)) <==> CurrentPage(pathname) == IndexPage
  {
  }

  /** A link whose `href` equals the page's file name is always active. */
  lemma ExactNameIsActive(href: string, pathname: string)
    requires href == CurrentPage(pathname)
    ensures LinkMatches(href, CurrentPage(pathname))
  {
  }

  /** An empty `href` strips to the empty string, which every page name contains, so such
      a link is active on every page. */
  lemma EmptyHrefIsAlwaysActive(page: string)
    ensures LinkMatches("", page)
  {
    assert forall i :: !OccursAt("", HtmlSuffix, i);
    assert OccursAt(page, "", 0);
  }

  /** Stripping `.html` from `name.html` gives `name` back when the name has no dot. */
  lemma StripHtmlSuffix(name: string)
    requires forall i :: 0 <= i < |name| ==> name[i] != '.'
    ensures ReplaceFirst(name + HtmlSuffix, HtmlSuffix, "") == name
  {
    var href := name + HtmlSuffix;
    assert href[|name|..|name| + |HtmlSuffix|] == HtmlSuffix;
    forall j | 0 <= j < |name|
      ensures !OccursAt(href, HtmlSuffix, j)
    {
      assert href[j..j + |HtmlSuffix|][0] == href[j] == name[j];
    }
    assert FirstOccurrence(href, HtmlSuffix, |name|);
    assert href[..|name|] + "" + href[|name| + |HtmlSuffix|..] == name;
  }

  /** The substring test also marks `menu.html` active on `special-menu.html`. */
  lemma SubstringMatchesOtherPages()
    ensures LinkMatches("menu.html", "special-menu.html")
  {
    StripHtmlSuffix("menu");
    assert "menu" + HtmlSuffix == "menu.html";
    assert OccursAt("special-menu.html", "menu", 8);
  }

  datatype Link = Link(href: Option<string>, active: bool)

  /** The position of the first link without an `href`, or the number of links. */
  function FirstWithoutHref(links: seq<Link>): (k: nat)
    ensures k <= |links|
    ensures forall i :: 0 <= i < k ==> links[i].href.Some?
    ensures k < |links| ==> links[k].href.None?
    decreases |links|
  {
    if |links| == 0 || links[0].href.None? then 0 else 1 + FirstWithoutHref(links[1..])
  }

  /** The `forEach` of `updateActiveLink` over the links, in order, with `matches` the
      activation test. A link without an `href` has its flag cleared and then throws at
      `.replace`, which ends the loop: the links after it keep whatever flag they had. */
  function MarkLinks(links: seq<Link>, matches: string -> bool): (r: seq<Link>)
    ensures |r| == |links|
    ensures forall i :: 0 <= i < |links| ==> r[i].href == links[i].href
    decreases |links|
  {
    if |links| == 0 then []
    else match links[0].href
      case None => [links[0].(active := false)] + links[1..]
      case Some(h) => [links[0].(active := matches(h))] + MarkLinks(links[1..], matches)
  }

  /** Which flags the loop sets, which it clears and which it never reaches. */
  lemma {:induction false} MarkLinksFlags(links: seq<Link>, matches: string -> bool)
    ensures MarkedFrom(links, MarkLinks(links, matches), matches)
    decreases |links|
  {
    if |links| > 0 {
      if links[0].href.Some? {
        MarkLinksFlags(links[1..], matches);
        MarkedCons(links, matches);
      } else {
        var r := MarkLinks(links, matches);
        assert FirstWithoutHref(links) == 0;
        assert r == [links[0].(active := false)] + links[1..];
      }
    }
  }

  /** `r` is `links` after the loop: flags set by `matches` up to the first link without
      an `href`, that one cleared, the rest untouched. */
  predicate MarkedFrom(links: seq<Link>, r: seq<Link>, matches: string -> bool)
    requires |r| == |links|
  {
    var k := FirstWithoutHref(links);
    && (forall i :: 0 <= i < k ==> (r[i].active <==> matches(links[i].href.value)))
    && (k < |links| ==> !r[k].active)
    && (forall i :: k < i < |links| ==> r[i] == links[i])
  }

  lemma MarkedCons(links: seq<Link>, matches: string -> bool)
    requires |links| > 0 && links[0].href.Some?
    requires MarkedFrom(links[1..], MarkLinks(links[1..], matches), matches)
    ensures MarkedFrom(links, MarkLinks(links, matches), matches)
  {
    var tail := links[1..];
    var rt := MarkLinks(tail, matches);
    var r := MarkLinks(links, matches);
    assert r == [links[0].(active := matches(links[0].href.value))] + rt;
    assert FirstWithoutHref(links) == 1 + FirstWithoutHref(tail);
    forall i | 1 <= i < |links|
      ensures r[i] == rt[i - 1] && links[i] == tail[i - 1]
    {
    }
  }

  /** `updateActiveLink` on the nav links of the page at `pathname`. */
  function UpdateActiveLink(links: seq<Link>, pathname: string): (r: seq<Link>)
    ensures |r| == |links|
    ensures forall i :: 0 <= i < |links| ==> r[i].href == links[i].href
    ensures forall i :: 0 <= i < FirstWithoutHref(links) ==>
              (r[i].active <==> LinkMatches(links[i].href.value, CurrentPage(pathname)))
    ensures FirstWithoutHref(links) < |links| ==> !r[FirstWithoutHref(links)].active
    ensures forall i :: FirstWithoutHref(links) < i < |links| ==> r[i] == links[i]
  {
    var page := CurrentPage(pathname);
    MarkLinksFlags(links, h => LinkMatches(h, page));
    MarkLinks(links, h => LinkMatches(h, page))
  }

  /** When every link has an `href`, each flag is cleared before being set, so the result
      depends on the `href`s and the path alone. */
  lemma FlagsDependOnHrefsOnly(a: seq<Link>, b: seq<Link>, pathname: string)
    requires |a| == |b|
    requires forall i :: 0 <= i < |a| ==> a[i].href.Some? && a[i].href == b[i].href
    ensures UpdateActiveLink(a, pathname) == UpdateActiveLink(b, pathname)
  {
    assert FirstWithoutHref(a) == |a|;
    assert FirstWithoutHref(b) == |b|;
  }

  /** A link without an `href` stops the loop, so a stale highlight after it survives. */
  lemma MissingHrefLeavesStaleHighlight(pathname: string, later: string)
    ensures UpdateActiveLink([Link(None, true), Link(Some(later), true)], pathname)
            == [Link(None, false), Link(Some(later), true)]
  {
    var links := [Link(None, true), Link(Some(later), true)];
    assert FirstWithoutHref(links) == 0;
  }

  // ------------------------------------------------------------- mobile menu

  /** The `active` class on the nav menu and on the menu button. */
  datatype SimpleMenu = SimpleMenu(nav: bool, button: bool)

  datatype Tap = ButtonTap | NavLinkTap

  /** `initMobileMenu` installs its listeners only when both elements exist. */
  function InitMobileMenu(hasButton: bool, hasNav: bool): (installed: bool)
    ensures installed <==> hasButton && hasNav
  {
    hasButton && hasNav
  }

  /** One tap: the button toggles both classes, a nav link removes both; with no listeners
      installed nothing happens. */
  function HandleTap(installed: bool, m: SimpleMenu, t: Tap): (r: SimpleMenu)
    ensures !installed ==> r == m
    ensures installed && t == ButtonTap ==> r == SimpleMenu(!m.nav, !m.button)
    ensures installed && t == NavLinkTap ==> r == SimpleMenu(false, false)
    ensures installed && m.nav == m.button ==> r.nav == r.button
  {
    if !installed then m
    else match t
      case ButtonTap => SimpleMenu(!m.nav, !m.button)
      case NavLinkTap => SimpleMenu(false, false)
  }

  /** The taps applied in order (the last tap is applied last). */
  function RunTaps(installed: bool, m: SimpleMenu, taps: seq<Tap>): SimpleMenu
    decreases |taps|
  {
    if |taps| == 0 then m else HandleTap(installed, RunTaps(installed, m, taps[..|taps| - 1]), taps[|taps| - 1])
  }

  /** The number of button taps since the last nav-link tap (all of them if there was
      none). */
  function TrailingButtonTaps(taps: seq<Tap>): (n: nat)
    ensures n <= |taps|
    ensures NavLinkTap !in taps ==> n == |taps|
    decreases |taps|
  {
    if |taps| == 0 || taps[|taps| - 1] == NavLinkTap then 0
    else
      var p := taps[..|taps| - 1];
      assert taps[|taps| - 1].ButtonTap?;
      assert taps == p + [ButtonTap];
      TrailingButtonTaps(p) + 1
  }

  predicate Odd(n: nat) {
    n % 2 == 1
  }

  /** The reference reading of the menu state: open exactly when an odd number of button
      taps followed the last nav-link tap, or, with no nav-link tap at all, when the
      start state flipped an odd number of times. */
  function ExpectedOpen(startOpen: bool, taps: seq<Tap>): bool {
    if NavLinkTap in taps then Odd(TrailingButtonTaps(taps)) else startOpen != Odd(|taps|)
  }

  lemma RunTapsSnoc(installed: bool, m: SimpleMenu, p: seq<Tap>, t: Tap)
    ensures RunTaps(installed, m, p + [t]) == HandleTap(installed, RunTaps(installed, m, p), t)
  {
    assert (p + [t])[..|p|] == p;
  }

  lemma ExpectedAfterNavTap(startOpen: bool, p: seq<Tap>)
    ensures !ExpectedOpen(startOpen, p + [NavLinkTap])
  {
    var taps := p + [NavLinkTap];
    assert taps[|p|] == NavLinkTap;
  }

  lemma ExpectedAfterButtonTap(startOpen: bool, p: seq<Tap>)
    ensures ExpectedOpen(startOpen, p + [ButtonTap]) == !ExpectedOpen(startOpen, p)
  {
    var taps := p + [ButtonTap];
    assert taps[..|p|] == p;
    assert TrailingButtonTaps(taps) == TrailingButtonTaps(p) + 1;
    assert (NavLinkTap in taps) == (NavLinkTap in p);
    OddFlips(TrailingButtonTaps(p));
    OddFlips(|p|);
  }

  lemma OddFlips(n: nat)
    ensures Odd(n + 1) == !Odd(n)
  {
  }

  /** Without both the button and the menu no listener is installed, so no sequence of
      taps changes either class. */
  lemma {:induction false} UninstalledMenuIgnoresTaps(hasButton: bool, hasNav: bool, m: SimpleMenu, taps: seq<Tap>)
    requires !(hasButton && hasNav)
    ensures RunTaps(InitMobileMenu(hasButton, hasNav), m, taps) == m
    decreases |taps|
  {
    if |taps| > 0 {
      UninstalledMenuIgnoresTaps(hasButton, hasNav, m, taps[..|taps| - 1]);
    }
  }

  /** With listeners installed and both classes equal at the start, the two classes stay
      equal and the menu is open exactly when the parity reading says so. */
  lemma {:induction false} MenuStateByParity(m: SimpleMenu, taps: seq<Tap>)
    requires m.nav == m.button
    ensures RunTaps(InitMobileMenu(true, true), m, taps).nav == RunTaps(InitMobileMenu(true, true), m, taps).button
    ensures RunTaps(InitMobileMenu(true, true), m, taps).nav == ExpectedOpen(m.nav, taps)
    decreases |taps|
  {
    if |taps| > 0 {
      var p := taps[..|taps| - 1];
      var t := taps[|taps| - 1];
      assert taps == p + [t];
      MenuStateByParity(m, p);
      RunTapsSnoc(true, m, p, t);
      if t == ButtonTap {
        ExpectedAfterButtonTap(m.nav, p);
      } else {
        ExpectedAfterNavTap(m.nav, p);
      }
    }
  }
}

=== FILE: numerals.dfy ===
/** Decimal integers as text: JavaScript's `parseInt(s, 10)` (read by the cart's
    direct quantity entry) and Python's `int(s)` / `str(n)` (the print client's
    state file). Only ASCII digits are modelled. */
module Numerals {
  import opened Options
  import opened Text

  predicate IsDigit(c: char) {
    '0' <= c <= '9'
  }

  predicate AllDigits(s: string) {
    forall i :: 0 <= i < |s| ==> IsDigit(s[i])
  }

  function DigitValue(c: char): nat
    requires IsDigit(c)
  {
    c as int - '0' as int
  }

  function DigitChar(d: nat): (c: char)
    requires d < 10
    ensures IsDigit(c) && DigitValue(c) == d
  {
    ('0' as int + d) as char
  }

  /** The number a string of decimal digits denotes (most significant first). */
  function DigitsValue(s: string): nat
    requires AllDigits(s)
    decreases |s|
  {
    if |s| == 0 then 0 else DigitsValue(s[..|s| - 1]) * 10 + DigitValue(s[|s| - 1])
  }

  /** Decimal rendering of a natural number, without leading zeros. */
  function Decimal(n: nat): (s: string)
    ensures |s| > 0 && AllDigits(s)
    ensures s[0] == '0' ==> n == 0
    decreases n
  {
    if n < 10 then [DigitChar(n)] else Decimal(n / 10) + [DigitChar(n % 10)]
  }

  lemma {:induction false} DecimalRoundTrip(n: nat)
    ensures DigitsValue(Decimal(n)) == n
    decreases n
  {
    if n >= 10 {
      var s := Decimal(n);
      assert s[..|s| - 1] == Decimal(n / 10);
      DecimalRoundTrip(n / 10);
    }
  }

  /** The longest prefix of `s` made of decimal digits. */
  function LeadingDigits(s: string): (r: string)
    ensures |r| <= |s| && r == s[..|r|] && AllDigits(r)
    ensures |r| < |s| ==> !IsDigit(s[|r|])
    decreases |s|
  {
    if |s| > 0 && IsDigit(s[0]) then [s[0]] + LeadingDigits(s[1..]) else []
  }

  /** `s` with its optional leading sign character removed. */
  function Unsigned(t: string): string {
    if |t| > 0 && (t[0] == '-' || t[0] == '+') then t[1..] else t
  }

  /** `parseInt(s, 10)`, with `None` for `NaN`: leading whitespace is skipped, one sign
      is read, then the longest run of digits; whatever follows it is ignored. */
  function JsParseInt(s: string): Option<int> {
    var t := TrimStart(s, IsJsSpace);
    var digits := LeadingDigits(Unsigned(t));
    if digits == [] then None
    else
      var v: int := DigitsValue(digits);
      if t[0] == '-' then Some(-v) else Some(v)
  }

  lemma {:induction false} TrimStartSkipsLeadingSpace(ws: string, x: string, sp: char -> bool)
    requires AllSpace(ws, sp)
    requires |x| > 0 && !sp(x[0])
    ensures TrimStart(ws + x, sp) == x
    decreases |ws|
  {
    if |ws| > 0 {
      assert (ws + x)[1..] == ws[1..] + x;
      TrimStartSkipsLeadingSpace(ws[1..], x, sp);
    }
  }

  lemma {:induction false} LeadingDigitsStopsAtNonDigit(d: string, rest: string)
    requires AllDigits(d)
    requires rest == [] || !IsDigit(rest[0])
    ensures LeadingDigits(d + rest) == d
    decreases |d|
  {
    if |d| > 0 {
      assert (d + rest)[1..] == d[1..] + rest;
      LeadingDigitsStopsAtNonDigit(d[1..], rest);
    }
  }

  /** `parseInt` reads back a decimal number written after any whitespace and an optional
      minus sign, and ignores trailing text that does not start with a digit. */
  lemma JsParseIntReadsDecimal(text: string, ws: string, negative: bool, n: nat, rest: string)
    requires AllSpace(ws, IsJsSpace)
    requires rest == [] || !IsDigit(rest[0])
    requires text == ws + (if negative then "-" else "") + Decimal(n) + rest
    ensures JsParseInt(text) == Some(if negative then -(n as int) else n as int)
  {
    var x := NumberAfterSpace(text, ws, negative, n, rest);
    JsParseIntOfParts(text, x, Decimal(n));
    DecimalRoundTrip(n);
  }

  lemma NumberAfterSpace(text: string, ws: string, negative: bool, n: nat, rest: string) returns (x: string)
    requires AllSpace(ws, IsJsSpace)
    requires rest == [] || !IsDigit(rest[0])
    requires text == ws + (if negative then "-" else "") + Decimal(n) + rest
    ensures TrimStart(text, IsJsSpace) == x
    ensures LeadingDigits(Unsigned(x)) == Decimal(n)
    ensures |x| > 0 && (x[0] == '-' <==> negative)
  {
    var d := Decimal(n);
    var sign := if negative then "-" else "";
    x := sign + (d + rest);
    assert text == ws + x;
    SkipSpaceBeforeNumber(ws, x);
    UnsignedDropsSign(sign, d + rest);
    LeadingDigitsStopsAtNonDigit(d, rest);
  }

  lemma JsParseIntOfParts(text: string, x: string, d: string)
    requires TrimStart(text, IsJsSpace) == x
    requires |d| > 0 && LeadingDigits(Unsigned(x)) == d
    ensures var v: int := DigitsValue(d);
            JsParseInt(text) == Some(if x[0] == '-' then -v else v)
  {
  }

  lemma JsParseIntReadsPaddedDecimal(ws: string, n: nat)
    requires AllSpace(ws, IsJsSpace)
    ensures JsParseInt(ws + Decimal(n)) == Some(n as int)
  {
    var d := Decimal(n);
    SkipSpaceBeforeNumber(ws, d);
    assert d + [] == d;
    LeadingDigitsStopsAtNonDigit(d, []);
    assert Unsigned(d) == d;
    JsParseIntOfParts(ws + d, d, d);
    DecimalRoundTrip(n);
  }

  lemma SkipSpaceBeforeNumber(ws: string, x: string)
    requires AllSpace(ws, IsJsSpace)
    requires |x| > 0 && (x[0] == '-' || IsDigit(x[0]))
    ensures TrimStart(ws + x, IsJsSpace) == x
  {
    TrimStartSkipsLeadingSpace(ws, x, IsJsSpace);
  }

  lemma UnsignedDropsSign(sign: string, x: string)
    requires sign == "" || sign == "-"
    requires |x| > 0 && IsDigit(x[0])
    ensures Unsigned(sign + x) == x
  {
    if sign == "" {
      assert sign + x == x;
    }
  }

  /** The digit groups Python's `int()` accepts in base 10: digits, with single
      underscores allowed between two digits. */
  predicate ValidGrouping(b: string) {
    && |b| > 0 && IsDigit(b[0]) && IsDigit(b[|b| - 1])
    && (forall i :: 0 <= i < |b| ==> IsDigit(b[i]) || b[i] == '_')
    && (forall i :: 0 <= i < |b| - 1 && b[i] == '_' ==> b[i + 1] != '_')
  }

  function DropUnderscores(b: string): (r: string)
    requires forall i :: 0 <= i < |b| ==> IsDigit(b[i]) || b[i] == '_'
    ensures AllDigits(r)
    decreases |b|
  {
    if |b| == 0 then [] else (if b[0] == '_' then [] else [b[0]]) + DropUnderscores(b[1..])
  }

  lemma {:induction false} DropUnderscoresKeepsDigits(b: string)
    requires AllDigits(b)
    ensures DropUnderscores(b) == b
    decreases |b|
  {
    if |b| > 0 {
      DropUnderscoresKeepsDigits(b[1..]);
    }
  }

  /** Python's `int(s)` on a string, with `None` for the `ValueError` it raises:
      surrounding whitespace, one optional sign and underscore-grouped digits. */
  function PyInt(s: string): Option<int> {
    var t := Trim(s, IsPySpace);
    var body := Unsigned(t);
    if !ValidGrouping(body) then None
    else
      var v: int := DigitsValue(DropUnderscores(body));
      if t[0] == '-' then Some(-v) else Some(v)
  }

  /** Python's `str(n)` for an integer. */
  function PyStr(n: int): (s: string)
    ensures |s| > 0 && IsDigit(s[|s| - 1])
    ensures IsDigit(s[0]) || s[0] == '-'
  {
    if n < 0 then "-" + Decimal(-n) else Decimal(n)
  }

  /** `int(str(n)) == n`. */
  lemma PyIntRoundTrip(n: int)
    ensures PyInt(PyStr(n)) == Some(n)
  {
    if n < 0 {
      PyIntReadsNegative(-n);
      assert -(-n) == n;
    } else {
      PyIntReadsNonNegative(n);
    }
  }

  lemma DecimalIsValidGrouping(m: nat)
    ensures ValidGrouping(Decimal(m)) && DropUnderscores(Decimal(m)) == Decimal(m)
  {
    DropUnderscoresKeepsDigits(Decimal(m));
  }

  lemma PyIntReadsNonNegative(m: nat)
    ensures PyInt(PyStr(m)) == Some(m as int)
  {
    assert PyStr(m) == Decimal(m);
    PyIntReadsDecimal(m);
  }

  lemma PyIntReadsDecimal(m: nat)
    ensures PyInt(Decimal(m)) == Some(m as int)
  {
    var d := Decimal(m);
    DecimalIsUnpadded(m);
    DecimalIsValidGrouping(m);
    DecimalRoundTrip(m);
    assert Unsigned(d) == d;
    PyIntOfParts(d, d);
  }

  lemma DecimalIsUnpadded(m: nat)
    ensures Trim(Decimal(m), IsPySpace) == Decimal(m)
  {
    var d := Decimal(m);
    assert IsDigit(d[0]) && IsDigit(d[|d| - 1]);
    TrimKeepsUnpaddedString(d, IsPySpace);
  }

  lemma PyIntReadsNegative(m: nat)
    requires m > 0
    ensures PyInt(PyStr(-(m as int))) == Some(-(m as int))
  {
    var d := Decimal(m);
    var s := "-" + d;
    assert PyStr(-(m as int)) == s;
    PyStrIsUnpadded(-(m as int));
    DecimalIsValidGrouping(m);
    DecimalRoundTrip(m);
    assert Unsigned(s) == d;
    PyIntOfParts(s, d);
  }

  lemma PyIntOfParts(s: string, body: string)
    requires Trim(s, IsPySpace) == s
    requires Unsigned(s) == body && ValidGrouping(body) && AllDigits(body)
    requires DropUnderscores(body) == body
    ensures var v: int := DigitsValue(body);
            PyInt(s) == Some(if s[0] == '-' then -v else v)
  {
  }

  lemma PyStrIsUnpadded(n: int)
    ensures Trim(PyStr(n), IsPySpace) == PyStr(n)
  {
    var s := PyStr(n);
    assert !IsPySpace(s[0]) && !IsPySpace(s[|s| - 1]);
    TrimKeepsUnpaddedString(s, IsPySpace);
  }

  lemma PyStrInjective(a: int, b: int)
    requires PyStr(a) == PyStr(b)
    ensures a == b
  {
    PyIntRoundTrip(a);
    PyIntRoundTrip(b);
  }

  /** A digit string's prefixes denote no more than the whole string. */
  lemma {:induction false} DigitsPrefixNoMore(s: string, k: nat)
    requires AllDigits(s) && k <= |s|
    ensures AllDigits(s[..k]) && DigitsValue(s[..k]) <= DigitsValue(s)
    decreases |s|
  {
    if k < |s| {
      var init := s[..|s| - 1];
      assert init[..k] == s[..k];
      DigitsPrefixNoMore(init, k);
    } else {
      assert s[..k] == s;
    }
  }

  /** `int()` reads any non-empty run of ASCII digits as its value. */
  lemma {:induction false} PyIntReadsDigits(t: string)
    requires |t| > 0 && AllDigits(t)
    ensures PyInt(t) == Some(DigitsValue(t) as int)
  {
    assert IsDigit(t[0]) && IsDigit(t[|t| - 1]);
    TrimKeepsUnpaddedString(t, IsPySpace);
    assert Unsigned(t) == t;
    DropUnderscoresKeepsDigits(t);
    PyIntOfParts(t, t);
  }

  /** `int("")` and `int("-")` raise. */
  lemma PyIntRejectsBareSign(w: string)
    requires w == "" || w == "-"
    ensures PyInt(w) == None
  {
    if w == "-" {
      TrimKeepsUnpaddedString(w, IsPySpace);
    }
    assert Unsigned(Trim(w, IsPySpace)) == [];
  }

  /** An ASCII separator (U+001C to U+001F) before a number is not skipped, so `int()`
      raises, although `str.isspace` counts it as whitespace. */
  lemma PyIntRejectsSeparatorPadding(sep: char, d: string)
    requires '\U{1C}' <= sep <= '\U{1F}'
    requires |d| > 0 && AllDigits(d)
    ensures PyInt([sep] + d) == None
  {
    var s := [sep] + d;
    assert s[0] == sep && s[|s| - 1] == d[|d| - 1];
    assert !IsPySpace(s[0]) && !IsPySpace(s[|s| - 1]);
    TrimKeepsUnpaddedString(s, IsPySpace);
    assert Unsigned(s) == s;
    assert !IsDigit(s[0]);
    PyIntRejectsBadGrouping(s);
  }

  /** `int()` raises when what is left after the whitespace and the sign is not a grouped
      run of digits. */
  lemma PyIntRejectsBadGrouping(s: string)
    requires !ValidGrouping(Unsigned(Trim(s, IsPySpace)))
    ensures PyInt(s) == None
  {
  }
}

=== FILE: options.dfy ===
/** The optional value used throughout the model: a JavaScript `null`/`undefined`
    or a Python `None` on one side, a present value on the other. */
module Options {

  datatype Option<T> = None | Some(value: T) {

    /** The value if present, otherwise `default` (JavaScript's `x || default`
        for values that are never falsy when present). */
    function GetOr(default: T): T {
      match this
      case Some(v) => v
      case None => default
    }
  }
}

=== FILE: print_orders.dfy ===
/** The order-printing client: the state file holding the id of the last printed order,
    and one pass of the polling loop that fetches the next order, prints it and advances
    the cursor. Downloading and printing are inputs of each pass. */
module PrintOrders {
  import opened Options
  import opened Numerals

  /** The state file `last_order.txt`. */
  datatype StateFile = Missing | Holds(text: string)

  /** `load_last_order_id` as written: a missing or unparsable file counts as order 1
      already printed. */
  function LoadLastOrderIdAsWritten(file: StateFile): (id: int)
    ensures file.Missing? ==> id == 1
    ensures file.Holds? && PyInt(file.text).Some? ==> id == PyInt(file.text).value
    ensures file.Holds? && PyInt(file.text).None? ==> id == 1
  {
    match file
    case Missing => 1
    case Holds(text) => PyInt(text).GetOr(1)
  }

  /** `load_last_order_id` with the default its messages describe: with no usable file
      nothing has been printed yet, so polling starts at order 1. */
  function LoadLastOrderId(file: StateFile): (id: int)
    ensures file.Missing? ==> id == 0
    ensures file.Holds? && PyInt(file.text).Some? ==> id == PyInt(file.text).value
    ensures file.Holds? && PyInt(file.text).None? ==> id == 0
  {
    match file
    case Missing => 0
    case Holds(text) => PyInt(text).GetOr(0)
  }

  /** `save_last_order_id`: the file is overwritten with the id in decimal. */
  function SaveLastOrderId(id: int): (file: StateFile)
    ensures file.Holds? && PyInt(file.text) == Some(id)
  {
    PyIntRoundTrip(id);
    Holds(PyStr(id))
  }

  /** Whatever id is saved is the id loaded back, by either loader. */
  lemma LoadAfterSave(id: int)
    ensures LoadLastOrderId(SaveLastOrderId(id)) == id
    ensures LoadLastOrderIdAsWritten(SaveLastOrderId(id)) == id
  {
    PyIntRoundTrip(id);
  }

  /** Two different ids are never saved as the same file. */
  lemma SavedIdsAreDistinct(a: int, b: int)
    requires a != b
    ensures SaveLastOrderId(a) != SaveLastOrderId(b)
  {
    LoadAfterSave(a);
    LoadAfterSave(b);
  }

  /** The name of an order's document in the storage bucket. */
  function OrderFileName(id: int): (name: string)
    ensures |name| > 17 && name[..12] == "wempy_order_" && name[|name| - 5..] == ".docx"
  {
    "wempy_order_" + PyStr(id) + ".docx"
  }

  lemma OrderFileNameInjective(a: int, b: int)
    requires OrderFileName(a) == OrderFileName(b)
    ensures a == b
  {
    var na := OrderFileName(a);
    assert PyStr(a) == na[12..|na| - 5];
    assert PyStr(b) == na[12..|na| - 5];
    PyStrInjective(a, b);
  }

  /** The client's memory (`last_known_id`) and the state file on disk. */
  datatype Poller = Poller(lastKnown: int, file: StateFile)

  /** What one pass of the loop met. `download_order` turns every storage error into
      "not found", so a missing order and an unreachable store look the same.
      - `PrintFailed`: `print_file` reported failure and no job reached the printer.
      - `Printed`: the order printed and the new cursor was saved.
      - `PrintedButOpenRaised`: the cursor advanced in memory, then opening the state file
        for writing raised, leaving the file as it was.
      - `PrintedButWriteRaised(kept)`: the cursor advanced, the state file was opened for
        writing (which empties it), and the write or the close raised once `kept`
        characters of the new id had reached it.
      - `SentButNotAdvanced`: a job reached the printer, but the pass then raised or
        reported failure (restoring the default printer can raise after the job was
        spooled), so the cursor did not move.
      - `Raised`: any other exception, caught before anything was printed. */
  datatype Attempt =
    | NotFound
    | PrintFailed
    | Printed
    | PrintedButOpenRaised
    | PrintedButWriteRaised(kept: nat)
    | SentButNotAdvanced
    | Raised

  /** The order the next pass asks for. */
  function NextOrderId(p: Poller): int {
    p.lastKnown + 1
  }

  /** The pass reached `last_known_id = next_order_id`. */
  predicate Advances(a: Attempt) {
    a.Printed? || a.PrintedButOpenRaised? || a.PrintedButWriteRaised?
  }

  /** A job for the requested order reached the printer. */
  predicate SentToPrinter(a: Attempt) {
    Advances(a) || a.SentButNotAdvanced?
  }

  /** What an interrupted `write_text` leaves in the file: the first `kept` characters. */
  function WrittenPrefix(text: string, kept: nat): (w: string)
    ensures w <= text
    ensures kept < |text| ==> |w| == kept
    ensures kept >= |text| ==> w == text
  {
    if kept < |text| then text[..kept] else text
  }

  /** One pass of the `while True` loop. */
  function Step(p: Poller, a: Attempt): (q: Poller)
    ensures Advances(a) ==> q.lastKnown == NextOrderId(p)
    ensures !Advances(a) ==> q == p
    ensures a == Printed ==> q.file == SaveLastOrderId(NextOrderId(p))
    ensures a == PrintedButOpenRaised ==> q.file == p.file
    ensures a.PrintedButWriteRaised? ==> q.file.Holds? && q.file.text <= PyStr(NextOrderId(p))
    ensures a.PrintedButWriteRaised? && a.kept < |PyStr(NextOrderId(p))| ==> |q.file.text| == a.kept
  {
    match a
    case Printed => Poller(NextOrderId(p), SaveLastOrderId(NextOrderId(p)))
    case PrintedButOpenRaised => p.(lastKnown := NextOrderId(p))
    case PrintedButWriteRaised(kept) => Poller(NextOrderId(p), Holds(WrittenPrefix(PyStr(NextOrderId(p)), kept)))
    case _ => p
  }

  /** A pass that fails to print asks for the same order again on the next pass. */
  lemma FailedPassRetriesSameOrder(p: Poller, a: Attempt)
    requires !Advances(a)
    ensures NextOrderId(Step(p, a)) == NextOrderId(p)
  {
  }

  /** The client after starting on `file`, with the corrected loader. */
  function Start(file: StateFile): (p: Poller)
    ensures p.file == file && p.lastKnown == LoadLastOrderId(file)
  {
    Poller(LoadLastOrderId(file), file)
  }

  /** The client after starting on `file`, with the loader as written. */
  function StartAsWritten(file: StateFile): (p: Poller)
    ensures p.file == file && p.lastKnown == LoadLastOrderIdAsWritten(file)
  {
    Poller(LoadLastOrderIdAsWritten(file), file)
  }

  /** The state after a sequence of passes. */
  function Run(p: Poller, attempts: seq<Attempt>): Poller
    decreases |attempts|
  {
    if |attempts| == 0 then p else Run(Step(p, attempts[0]), attempts[1..])
  }

  /** The orders asked for, one per pass. */
  function PolledIds(p: Poller, attempts: seq<Attempt>): (ids: seq<int>)
    ensures |ids| == |attempts|
    decreases |attempts|
  {
    if |attempts| == 0 then [] else [NextOrderId(p)] + PolledIds(Step(p, attempts[0]), attempts[1..])
  }

  /** The orders the cursor moved past, in order. */
  function CompletedIds(p: Poller, attempts: seq<Attempt>): seq<int>
    decreases |attempts|
  {
    if |attempts| == 0 then []
    else (if Advances(attempts[0]) then [NextOrderId(p)] else []) + CompletedIds(Step(p, attempts[0]), attempts[1..])
  }

  /** The orders whose job reached the printer, in order, repeats included. */
  function PaperIds(p: Poller, attempts: seq<Attempt>): seq<int>
    decreases |attempts|
  {
    if |attempts| == 0 then []
    else (if SentToPrinter(attempts[0]) then [NextOrderId(p)] else []) + PaperIds(Step(p, attempts[0]), attempts[1..])
  }

  /** The cursor moves past orders one after another with no gap and no repeat, starting
      right after where it stood, and ends on the last one it moved past. */
  lemma {:induction false} PrintsConsecutiveOrders(p: Poller, attempts: seq<Attempt>)
    ensures forall i :: 0 <= i < |CompletedIds(p, attempts)| ==> CompletedIds(p, attempts)[i] == p.lastKnown + 1 + i
    ensures Run(p, attempts).lastKnown == p.lastKnown + |CompletedIds(p, attempts)|
    decreases |attempts|
  {
    if |attempts| > 0 {
      var q := Step(p, attempts[0]);
      PrintsConsecutiveOrders(q, attempts[1..]);
      var rest := CompletedIds(q, attempts[1..]);
      assert Run(p, attempts) == Run(q, attempts[1..]);
      if Advances(attempts[0]) {
        var done := [NextOrderId(p)] + rest;
        assert CompletedIds(p, attempts) == done;
        assert q.lastKnown == p.lastKnown + 1;
        assert forall i :: 1 <= i < |done| ==> done[i] == rest[i - 1];
      } else {
        assert CompletedIds(p, attempts) == rest;
        assert q == p;
      }
    }
  }

  /** A job that reaches the printer in a pass that does not advance is sent again by the
      next pass: the paper repeats the order even though the cursor does not. */
  lemma SentButNotAdvancedPrintsTwice(p: Poller, attempts: seq<Attempt>)
    requires |attempts| == 2 && attempts[0] == SentButNotAdvanced && attempts[1] == Printed
    ensures PaperIds(p, attempts) == [NextOrderId(p), NextOrderId(p)]
    ensures CompletedIds(p, attempts) == [NextOrderId(p)]
  {
    var n := NextOrderId(p);
    assert SentToPrinter(attempts[0]);
    StayingPassKeepsCursor(p, attempts);
    LonePrintedPass(p, attempts[1..]);
    assert PaperIds(p, attempts) == [n] + [n] == [n, n];
  }

  /** A pass that does not advance leaves the rest of the run starting from the same poller. */
  lemma StayingPassKeepsCursor(p: Poller, attempts: seq<Attempt>)
    requires |attempts| > 0 && !Advances(attempts[0])
    ensures PaperIds(p, attempts) == (if SentToPrinter(attempts[0]) then [NextOrderId(p)] else []) + PaperIds(p, attempts[1..])
    ensures CompletedIds(p, attempts) == CompletedIds(p, attempts[1..])
  {
    assert Step(p, attempts[0]) == p;
  }

  /** A single clean pass prints the next order and moves the cursor past it. */
  lemma LonePrintedPass(p: Poller, attempts: seq<Attempt>)
    requires |attempts| == 1 && attempts[0] == Printed
    ensures PaperIds(p, attempts) == [NextOrderId(p)]
    ensures CompletedIds(p, attempts) == [NextOrderId(p)]
  {
    var r := Step(p, attempts[0]);
    assert |attempts[1..]| == 0;
    assert PaperIds(r, attempts[1..]) == [] && CompletedIds(r, attempts[1..]) == [];
  }

  /** `ids` opens with `first`, never drops below it, and each entry repeats or rises by
      one over the one before. */
  predicate CreepsUpFrom(ids: seq<int>, first: int) {
    && (|ids| > 0 ==> ids[0] == first)
    && (forall i :: 0 <= i < |ids| ==> ids[i] >= first)
    && (forall i :: 0 < i < |ids| ==> ids[i] == ids[i - 1] || ids[i] == ids[i - 1] + 1)
  }

  lemma CreepsUpCons(first: int, rest: seq<int>, next: int)
    requires first <= next <= first + 1
    requires CreepsUpFrom(rest, next)
    ensures CreepsUpFrom([first] + rest, first)
  {
    var ids := [first] + rest;
    assert forall i :: 1 <= i < |ids| ==> ids[i] == rest[i - 1];
  }

  /** Each pass asks for the order after the cursor; the request never goes back and
      moves on by at most one order per pass. */
  lemma {:induction false} PollingNeverGoesBack(p: Poller, attempts: seq<Attempt>)
    ensures CreepsUpFrom(PolledIds(p, attempts), NextOrderId(p))
    decreases |attempts|
  {
    if |attempts| > 0 {
      var q := Step(p, attempts[0]);
      PollingNeverGoesBack(q, attempts[1..]);
      assert PolledIds(p, attempts) == [NextOrderId(p)] + PolledIds(q, attempts[1..]);
      CreepsUpCons(NextOrderId(p), PolledIds(q, attempts[1..]), NextOrderId(q));
    }
  }

  // ------------------------------------------------------------------ restarts

  /** The file never runs ahead of the client: what a restart with the corrected loader
      would load is at most the cursor in memory. */
  predicate FileNotAhead(p: Poller) {
    LoadLastOrderId(p.file) <= p.lastKnown
  }

  /** The same with the loader as written. */
  predicate FileNotAheadAsWritten(p: Poller) {
    LoadLastOrderIdAsWritten(p.file) <= p.lastKnown
  }

  /** Whatever part of a positive id an interrupted save left in the file, either loader
      reads back no more than that id. */
  lemma WrittenPrefixLoadsNoMore(n: int, kept: nat)
    requires n >= 1
    ensures LoadLastOrderId(Holds(WrittenPrefix(PyStr(n), kept))) <= n
    ensures LoadLastOrderIdAsWritten(Holds(WrittenPrefix(PyStr(n), kept))) <= n
  {
    var d := Decimal(n);
    assert PyStr(n) == d;
    var k := if kept < |d| then kept else |d|;
    var w := WrittenPrefix(d, kept);
    assert w == d[..k];
    if k == 0 {
      assert w == [];
      PyIntRejectsBareSign(w);
    } else {
      DigitsPrefixNoMore(d, k);
      PyIntReadsDigits(w);
      DecimalRoundTrip(n);
    }
  }

  /** From a non-negative cursor, no pass makes the file run ahead, under either loader. */
  lemma StepKeepsFileNotAhead(p: Poller, a: Attempt)
    requires 0 <= p.lastKnown
    ensures FileNotAhead(p) ==> FileNotAhead(Step(p, a))
    ensures FileNotAheadAsWritten(p) ==> FileNotAheadAsWritten(Step(p, a))
  {
    var q := Step(p, a);
    if a.Printed? || a.PrintedButWriteRaised? {
      WrittenFileNotAhead(p, a);
    } else {
      assert q.file == p.file && q.lastKnown >= p.lastKnown;
    }
  }

  /** A pass that writes the state file leaves in it, under either loader, at most the
      order it has just moved past. */
  lemma WrittenFileNotAhead(p: Poller, a: Attempt)
    requires 0 <= p.lastKnown && (a.Printed? || a.PrintedButWriteRaised?)
    ensures Step(p, a).lastKnown == NextOrderId(p)
    ensures LoadLastOrderId(Step(p, a).file) <= NextOrderId(p)
    ensures LoadLastOrderIdAsWritten(Step(p, a).file) <= NextOrderId(p)
  {
    if a.Printed? {
      LoadAfterSave(NextOrderId(p));
    } else {
      WrittenPrefixLoadsNoMore(NextOrderId(p), a.kept);
    }
  }

  /** From a non-negative cursor whose file is not ahead, a restart at any point asks for
      an order no later than the running client would: no order is skipped. This holds
      for the corrected loader and for the loader as written. */
  lemma {:induction false} RestartNeverSkipsOrders(p: Poller, attempts: seq<Attempt>)
    requires 0 <= p.lastKnown
    ensures FileNotAhead(p) ==> FileNotAhead(Run(p, attempts))
    ensures FileNotAhead(p) ==> NextOrderId(Start(Run(p, attempts).file)) <= NextOrderId(Run(p, attempts))
    ensures FileNotAheadAsWritten(p) ==> FileNotAheadAsWritten(Run(p, attempts))
    ensures FileNotAheadAsWritten(p) ==>
              NextOrderId(StartAsWritten(Run(p, attempts).file)) <= NextOrderId(Run(p, attempts))
    decreases |attempts|
  {
    if |attempts| > 0 {
      StepKeepsFileNotAhead(p, attempts[0]);
      RestartNeverSkipsOrders(Step(p, attempts[0]), attempts[1..]);
    }
  }

  /** Either start leaves the file and the cursor in agreement. */
  lemma StartIsNotAhead(file: StateFile)
    ensures FileNotAhead(Start(file))
    ensures FileNotAheadAsWritten(StartAsWritten(file))
  {
  }

  /** With a negative cursor an interrupted save can leave a lone `-`, which loads as the
      default and puts the file ahead of the client. */
  lemma NegativeCursorCanRunAhead()
    ensures var p := Poller(-2, Holds("-2"));
            FileNotAhead(p) && !FileNotAhead(Step(p, PrintedButWriteRaised(1)))
  {
    PyIntReadsNegative(2);
    assert PyStr(-2) == "-2";
    assert PyStr(-1) == "-1";
    var w := WrittenPrefix("-1", 1);
    assert w == "-";
    PyIntRejectsBareSign(w);
  }

  /** An interrupted save that empties the file makes a restart request an order the
      client had already printed. */
  lemma InterruptedSaveRepeatsOrders(p: Poller)
    requires p.lastKnown >= 1
    ensures var q := Step(p, PrintedButWriteRaised(0));
            && q.file.Holds? && |q.file.text| == 0
            && NextOrderId(Start(q.file)) == 1
            && NextOrderId(StartAsWritten(q.file)) == 2
            && NextOrderId(StartAsWritten(q.file)) <= q.lastKnown
  {
    var q := Step(p, PrintedButWriteRaised(0));
    assert |q.file.text| == 0;
    EmptyFileLoadsDefault(q.file);
  }

  /** An empty state file loads as either loader's default. */
  lemma EmptyFileLoadsDefault(file: StateFile)
    requires file.Holds? && |file.text| == 0
    ensures LoadLastOrderId(file) == 0
    ensures LoadLastOrderIdAsWritten(file) == 1
  {
    PyIntRejectsBareSign(file.text);
  }

  // -------------------------------------------------------------- fresh start

  /** Without a state file the as-written loader claims order 1 is done, so order 1 is
      never asked for, however many passes run. */
  lemma FreshStartSkipsFirstOrder(attempts: seq<Attempt>)
    ensures NextOrderId(StartAsWritten(Missing)) == 2
    ensures 1 !in PolledIds(StartAsWritten(Missing), attempts)
  {
    PollingNeverGoesBack(StartAsWritten(Missing), attempts);
  }

  /** With the intended default a fresh client asks for order 1 first, and the cursor
      moves past orders 1, 2, 3, ... */
  lemma FreshStartBeginsAtFirstOrder(attempts: seq<Attempt>)
    ensures NextOrderId(Start(Missing)) == 1
    ensures |attempts| > 0 ==> PolledIds(Start(Missing), attempts)[0] == 1
    ensures forall i :: 0 <= i < |CompletedIds(Start(Missing), attempts)| ==>
              CompletedIds(Start(Missing), attempts)[i] == i + 1
  {
    PollingNeverGoesBack(Start(Missing), attempts);
    PrintsConsecutiveOrders(Start(Missing), attempts);
  }
}

=== FILE: site.dfy ===
/** Names shared by both page loaders. */
module Site {
  /** The page a directory URL serves. */
  const IndexPage := "index.html"
}

=== FILE: text.dfy ===
/** The string primitives the cart, the page composer and the print client lean on:
    JavaScript's `trim`, `startsWith`, `includes`, `replace` (string pattern),
    `split('/').pop()` and `toLowerCase`, and Python's whitespace stripping. */
module Text {
  import opened Options

  /** ECMAScript WhiteSpace and LineTerminator code points: what `trim` removes and
      what `parseInt` skips. */
  predicate IsJsSpace(c: char) {
    || c == '\t' || c == '\n' || c == '\U{B}' || c == '\U{C}' || c == '\r' || c == ' '
    || c == '\U{A0}' || c == '\U{1680}' || ('\U{2000}' <= c <= '\U{200A}')
    || c == '\U{2028}' || c == '\U{2029}' || c == '\U{202F}' || c == '\U{205F}'
    || c == '\U{3000}' || c == '\U{FEFF}'
  }

  /** The characters `int()` skips around a number: the ASCII whitespace `\t\n\v\f\r`
      and space, and the non-ASCII characters `str.isspace` accepts (CPython turns those
      into spaces first). The ASCII separators U+001C to U+001F are `isspace` but are not
      skipped. */
  predicate IsPySpace(c: char) {
    || ('\t' <= c <= '\r') || c == ' '
    || c == '\U{85}' || c == '\U{A0}' || c == '\U{1680}' || ('\U{2000}' <= c <= '\U{200A}')
    || c == '\U{2028}' || c == '\U{2029}' || c == '\U{202F}' || c == '\U{205F}'
    || c == '\U{3000}'
  }

  predicate AllSpace(s: string, sp: char -> bool) {
    forall i :: 0 <= i < |s| ==> sp(s[i])
  }

  /** Drops the longest prefix of `sp` characters. */
  function TrimStart(s: string, sp: char -> bool): (r: string)
    ensures |r| <= |s| && r == s[|s| - |r|..]
    ensures forall i :: 0 <= i < |s| - |r| ==> sp(s[i])
    ensures |r| > 0 ==> !sp(r[0])
    decreases |s|
  {
    if |s| > 0 && sp(s[0]) then TrimStart(s[1..], sp) else s
  }

  /** Drops the longest suffix of `sp` characters. */
  function TrimEnd(s: string, sp: char -> bool): (r: string)
    ensures |r| <= |s| && r == s[..|r|]
    ensures forall i :: |r| <= i < |s| ==> sp(s[i])
    ensures |r| > 0 ==> !sp(r[|r| - 1])
    decreases |s|
  {
    if |s| > 0 && sp(s[|s| - 1]) then TrimEnd(s[..|s| - 1], sp) else s
  }

  /** `r` is the stretch of `s` starting at `i`, and everything before and after it is `sp`. */
  predicate PaddedAt(s: string, r: string, i: int, sp: char -> bool) {
    && 0 <= i <= |s| - |r|
    && r == s[i..i + |r|]
    && AllSpace(s[..i], sp)
    && AllSpace(s[i + |r|..], sp)
  }

  /** `r` is `s` with some run of `sp` characters taken off each end. */
  ghost predicate PaddedBy(s: string, r: string, sp: char -> bool) {
    exists i :: PaddedAt(s, r, i, sp)
  }

  /** Strips `sp` characters from both ends; empty exactly when every character is one.
      `TrimIsPadded` and `TrimIsUnique` say which stretch of `s` is left. */
  function Trim(s: string, sp: char -> bool): (r: string)
    ensures |r| <= |s|
    ensures r == [] <==> AllSpace(s, sp)
    ensures |r| > 0 ==> !sp(r[0]) && !sp(r[|r| - 1])
  {
    TrimEmptyOnlyIfAllSpace(s, sp);
    TrimEnd(TrimStart(s, sp), sp)
  }

  /** What `Trim` keeps is a stretch of `s` with only `sp` characters around it. */
  lemma TrimIsPadded(s: string, sp: char -> bool)
    ensures PaddedBy(s, Trim(s, sp), sp)
  {
    var t := TrimStart(s, sp);
    var r := TrimEnd(t, sp);
    PaddedStretch(s, t, r, sp);
    assert Trim(s, sp) == r;
  }

  /** Conversely, a non-empty stretch of `s` with only `sp` characters around it and none at
      its own ends is what `Trim` keeps. */
  lemma TrimIsUnique(s: string, r: string, i: int, sp: char -> bool)
    requires PaddedAt(s, r, i, sp)
    requires |r| > 0 && !sp(r[0]) && !sp(r[|r| - 1])
    ensures Trim(s, sp) == r
  {
    var t := TrimStart(s, sp);
    var k := |s| - |t|;
    assert s[i] == r[0];
    // `TrimStart` stops at the first character that is not `sp`, which is `r[0]`.
    assert i == k;
    // `TrimEnd` stops at the last character of `t` that is not `sp`, which is `r`'s last.
    var m := TrimEnd(t, sp);
    assert t[..|r|] == r;
    assert |r| == |m|;
    assert Trim(s, sp) == m == t[..|m|];
  }

  /** A prefix `r` of a suffix `t` of `s` is padded in `s` when what `t` drops from `s` and
      what `r` drops from `t` are all `sp`. */
  lemma PaddedStretch(s: string, t: string, r: string, sp: char -> bool)
    requires |t| <= |s| && t == s[|s| - |t|..]
    requires forall j :: 0 <= j < |s| - |t| ==> sp(s[j])
    requires |r| <= |t| && r == t[..|r|]
    requires forall j :: |r| <= j < |t| ==> sp(t[j])
    ensures PaddedAt(s, r, |s| - |t|, sp)
  {
    var i := |s| - |t|;
    assert r == s[i..i + |r|];
    var before := s[..i];
    forall j | 0 <= j < |before|
      ensures sp(before[j])
    {
      assert before[j] == s[j];
    }
    var after := s[i + |r|..];
    forall j | 0 <= j < |after|
      ensures sp(after[j])
    {
      assert after[j] == t[|r| + j];
    }
  }

  lemma TrimEmptyOnlyIfAllSpace(s: string, sp: char -> bool)
    ensures TrimEnd(TrimStart(s, sp), sp) == [] ==> AllSpace(s, sp)
  {
    var t := TrimStart(s, sp);
    if TrimEnd(t, sp) == [] {
      assert |t| == 0;
    }
  }

  /** JavaScript's `String.prototype.trim`. */
  function JsTrim(s: string): (r: string)
    ensures r == [] <==> AllSpace(s, IsJsSpace)
  {
    Trim(s, IsJsSpace)
  }

  /** `trim` keeps a stretch of its input with only whitespace around it, and it is the one
      stretch with no whitespace at its own ends. */
  lemma JsTrimIsPadded(s: string)
    ensures PaddedBy(s, JsTrim(s), IsJsSpace)
    ensures forall r, i | PaddedAt(s, r, i, IsJsSpace) && |r| > 0 && !IsJsSpace(r[0]) && !IsJsSpace(r[|r| - 1]) ::
              JsTrim(s) == r
  {
    TrimIsPadded(s, IsJsSpace);
    forall r, i | PaddedAt(s, r, i, IsJsSpace) && |r| > 0 && !IsJsSpace(r[0]) && !IsJsSpace(r[|r| - 1])
      ensures JsTrim(s) == r
    {
      TrimIsUnique(s, r, i, IsJsSpace);
    }
  }

  lemma TrimKeepsUnpaddedString(s: string, sp: char -> bool)
    requires |s| > 0 && !sp(s[0]) && !sp(s[|s| - 1])
    ensures Trim(s, sp) == s
  {
    var t := TrimStart(s, sp);
    assert |t| == |s|;
  }

  predicate StartsWith(s: string, prefix: string) {
    |prefix| <= |s| && s[..|prefix|] == prefix
  }

  /** `sub` occurs in `s` starting at position `i`. */
  predicate OccursAt(s: string, sub: string, i: int) {
    0 <= i && i + |sub| <= |s| && s[i..i + |sub|] == sub
  }

  /** `i` is the leftmost position where `sub` occurs in `s`. */
  predicate FirstOccurrence(s: string, sub: string, i: int) {
    OccursAt(s, sub, i) && forall j :: 0 <= j < i ==> !OccursAt(s, sub, j)
  }

  /** The leftmost occurrence of `sub` in `s` at or after `from` (`indexOf`). */
  function IndexFrom(s: string, sub: string, from: nat): (r: Option<nat>)
    ensures r.Some? ==> from <= r.value && OccursAt(s, sub, r.value)
    ensures r.Some? ==> forall j :: from <= j < r.value ==> !OccursAt(s, sub, j)
    ensures r.None? ==> forall j :: from <= j ==> !OccursAt(s, sub, j)
    decreases |s| - from
  {
    if from + |sub| > |s| then None
    else if s[from..from + |sub|] == sub then Some(from)
    else IndexFrom(s, sub, from + 1)
  }

  /** JavaScript's `String.prototype.includes`. */
  function Contains(s: string, sub: string): (b: bool)
    ensures b <==> exists i :: OccursAt(s, sub, i)
  {
    IndexFrom(s, sub, 0).Some?
  }

  /** JavaScript's `replace` with a string pattern: only the leftmost occurrence is replaced. */
  function ReplaceFirst(s: string, pat: string, rep: string): (r: string)
    ensures (forall i :: !OccursAt(s, pat, i)) ==> r == s
    ensures forall i :: FirstOccurrence(s, pat, i) ==> r == s[..i] + rep + s[i + |pat|..]
  {
    match IndexFrom(s, pat, 0)
    case None => s
    case Some(k) =>
      assert FirstOccurrence(s, pat, k);
      s[..k] + rep + s[k + |pat|..]
  }

  /** Replaces every `from` character by `to` (`replace(/x/g, y)` for a single character). */
  function ReplaceChar(s: string, from: char, to: char): (r: string)
    ensures |r| == |s|
    ensures forall i :: 0 <= i < |s| ==> r[i] == (if s[i] == from then to else s[i])
  {
    seq(|s|, i requires 0 <= i < |s| => if s[i] == from then to else s[i])
  }

  /** `s.split('/').pop()`: the longest suffix of `s` holding no `/`. */
  function LastSegment(s: string): (r: string)
    ensures |r| <= |s| && r == s[|s| - |r|..]
    ensures forall i :: 0 <= i < |r| ==> r[i] != '/'
    ensures |r| < |s| ==> s[|s| - |r| - 1] == '/'
    decreases |s|
  {
    if |s| == 0 || s[|s| - 1] == '/' then []
    else LastSegment(s[..|s| - 1]) + [s[|s| - 1]]
  }

  /** Whatever precedes a `/` never shows in the last segment. */
  lemma {:induction false} LastSegmentAfterSlash(a: string, b: string)
    requires |a| > 0 && a[|a| - 1] == '/'
    ensures LastSegment(a + b) == LastSegment(b)
    decreases |b|
  {
    if |b| > 0 && b[|b| - 1] != '/' {
      assert (a + b)[..|a + b| - 1] == a + b[..|b| - 1];
      LastSegmentAfterSlash(a, b[..|b| - 1]);
    }
  }

  /** A name without `/` is its own last segment. */
  lemma {:induction false} LastSegmentOfPlainName(s: string)
    requires forall i :: 0 <= i < |s| ==> s[i] != '/'
    ensures LastSegment(s) == s
    decreases |s|
  {
    if |s| > 0 {
      LastSegmentOfPlainName(s[..|s| - 1]);
      assert s == s[..|s| - 1] + [s[|s| - 1]];
    }
  }

  predicate IsAsciiUpper(c: char) {
    'A' <= c <= 'Z'
  }

  predicate IsAsciiLetter(c: char) {
    'A' <= c <= 'Z' || 'a' <= c <= 'z'
  }

  function LowerChar(c: char): char {
    if IsAsciiUpper(c) then (c as int + 32) as char else c
  }

  /** `toLowerCase` on the ASCII letters. */
  function AsciiLower(s: string): (r: string)
    ensures |r| == |s|
    ensures forall i :: 0 <= i < |s| ==> r[i] == LowerChar(s[i])
  {
    seq(|s|, i requires 0 <= i < |s| => LowerChar(s[i]))
  }

  /** Text without upper-case ASCII letters is its own lower-case form. */
  lemma AsciiLowerKeepsLowerCase(s: string)
    requires forall i :: 0 <= i < |s| ==> !IsAsciiUpper(s[i])
    ensures AsciiLower(s) == s
  {
  }
}
